=== FILE: README.md ===
# Availability calendar of a static vacation-rental site, in Dafny

The site is built by a Node script and kept current by a second one. The
builder lists one directory per suite, derives each suite's URL slug, escapes
text for HTML, keeps the per-suite configuration (`name`, `icalUrl`) in step
with the directories, and writes pages under a configurable base path. The
synchroniser downloads each suite's iCalendar feed and turns it into the list
of booked days (`YYYY-MM-DD`, sorted, no duplicates). The browser script reads
that list and draws six month grids, marking booked days and today, or shows a
placeholder when there is nothing to draw.

This project models the logic of those three pieces as pure functions over
immutable data and proves what they promise:

- `civil.dfy` (module `Civil`): proleptic Gregorian civil dates, day numbers,
  the next day, weekdays and month arithmetic (what JS `Date` setters and
  getters do for the dates involved).
- `text.dfy` (module `Text`): decimal digits, `indexOf`, `split`, line
  splitting, `startsWith` search, lexicographic string order, JS white space
  and `trim`.
- `ymd.dfy` (module `Ymd`): the `YYYY-MM-DD` text form (`fmtYmd` and its inline
  copies) and `new Date("YYYY-MM-DD")`.
- `sorted.dfy` (module `SortedStrings`): `Array.from(new Set(...)).sort()` as
  insertion into a strictly ascending sequence.
- `ical.dfy` (module `Ical`): `parseDateFromLine`, `enumerateDates`,
  `parseIcsToBookedDates`.
- `json.dfy` (module `Json`): parsed JSON values and JS truthiness.
- `calendar.dfy` (module `Calendar`): the grids of `renderCalendar` as
  `MonthGrid` values, and the grid-or-placeholder decision of
  `initAvailability`.
- `builder.dfy` (module `Builder`): `normalizeBasePath`, `slugify`,
  `htmlEscape`, `isImageFile`, and the merge loop of `ensureConfig`.
- `wrappers.dfy` (module `Wrappers`): `Option`.

The feed format is iCalendar (RFC 5545): event blocks (section 3.6.1), the
`DTSTART` and `DTEND` properties (sections 3.8.2.4 and 3.8.2.2), DATE values
(section 3.3.4) and DATE-TIME values (section 3.3.5), of which only the date
is used. `DTEND` is exclusive.

Three things the JS runtime supplies become explicit:

- The host is assumed to run at UTC. `new Date("YYYY-MM-DD")` is parsed as UTC
  midnight and read back with local getters; the model reads it as the civil
  date it names.
- The clock (`new Date()`) is a parameter `today` of the renderer.
- The fetch of the availability file is a parameter: a network failure, or a
  response with its `ok` flag and its body parsed as JSON (`None` when the body
  is not JSON).

The calendar marks no past days. The feed download follows redirects with no
hop limit, although a comment says one redirect; the download itself is not
modelled.

## Model

| member | source | states |
|---|---|---|
| Civil.Succ | sync-ical.js:46 | `setDate(getDate() + 1)` gives a valid date whose day number is one more: the very next calendar day |
| Civil.SuccIsNext | sync-ical.js:46 | no valid date lies strictly between a date and its successor |
| Civil.DayNumberOrder | sync-ical.js:46 | comparing `Date` instants (`d < end`) is calendar order: day numbers compare as (year, month, day) does lexicographically |
| Civil.DayNumberInjective | sync-ical.js:46 | distinct valid dates are distinct instants |
| Civil.Weekday | public/assets/site.js:29 | `getDay()` is in 0..6 |
| Civil.WeekdaySucc | public/assets/site.js:29 | the weekday advances by one, modulo 7, from a day to the next |
| Civil.WeekdayEpoch | public/assets/site.js:29 | 1970-01-01 is a Thursday (4, with 0 = Sunday), anchoring the weekday count |
| Civil.WeekdayAfterMonth | public/assets/site.js:29-30 | day 1 of the next month falls on the weekday of this month's day 1 advanced by the month's length, modulo 7 |
| Civil.MonthAfter | public/assets/site.js:26-28 | `new Date(y, m + i, 1)` lands on a month in 1..12 that is exactly i months after (y, m), the year carried |
| Civil.MonthAfterStep | public/assets/site.js:25-28 | the month i + 1 months on is the month after the one i months on, December wrapping to January of the next year |
| Civil.MonthAfterDistinct | public/assets/site.js:25-28 | different offsets give different months |
| Civil.SuccOfMonthEnd | public/assets/site.js:30 | `new Date(y, m + 1, 0)` names the last day of month m: it is valid and the next day is day 1 of the following month |
| Text.NatToString | public/assets/site.js:3 | `String(n)` of a year: decimal digits with no leading zero whose value is n |
| Text.NatToStringInjective | public/assets/site.js:3 | distinct years print differently |
| Text.Pad2 | public/assets/site.js:4-5 | `padStart(2, '0')` of a month or day: two digits whose value is the number |
| Text.Pad2Injective | public/assets/site.js:4-5 | distinct months or days pad differently |
| Text.IndexOf | sync-ical.js:60 | `indexOf` finds an occurrence, no earlier one exists, and -1 means no occurrence at all |
| Text.SplitOnRoundTrip | sync-ical.js:58 | joining the pieces of `split` with the separator gives the text back |
| Text.SplitOnPiecesFree | sync-ical.js:58 | no piece of `split` contains the separator |
| Text.Lines | sync-ical.js:62 | `split(/\r?\n/)` always yields at least one line, even for empty text; `LinesAreSplitPieces` pins the pieces |
| Text.LinesAreSplitPieces | sync-ical.js:62 | `split(/\r?\n/)` gives the pieces between line feeds, a carriage return before each line feed removed |
| Text.FindPrefixed | sync-ical.js:63-64 | `find(l => l.startsWith(p))` picks a line with the prefix, and no earlier line has it; none found means no line has it |
| Text.StrLessTransitive | sync-ical.js:83 | the default `sort` order is transitive |
| Text.StrLessTotal | sync-ical.js:83 | any two distinct strings are ordered one way or the other |
| Text.StrLessIrreflexive | sync-ical.js:83 | no string sorts before itself |
| Text.StrLessConcat | sync-ical.js:83 | comparing strings whose leading parts have equal length compares those parts first, the rest on a tie |
| Text.DigitsOrder | sync-ical.js:83 | on digit strings of equal length, sort order is numeric order |
| Text.TrimStart | build.js:16 | the leading white space is dropped and nothing else |
| Text.TrimEnd | build.js:16 | the trailing white space is dropped and nothing else |
| Text.Trim | build.js:16 | `trim()` never lengthens the text, leaves no white space at either end, and gives the empty string for all-space text; `TrimmedFixpoint` shows it removes nothing else from trimmed text |
| Text.TrimmedFixpoint | build.js:16 | a string with no white space at either end is its own trim |
| Ymd.ParseYmd | sync-ical.js:44-45 | `new Date("YYYY-MM-DD")` gives a date only for a string of that shape naming a valid date with a year of at most 9999 |
| Ymd.Format | public/assets/site.js:2-7 | `fmtYmd`, also inlined at sync-ical.js 47-50 and 77; its shape is pinned by `FormatShape`, its inverse by `ParseFormat` and `FormatParse`, and its order by `FormatInjective` and `FormatOrder` |
| Ymd.FormatShape | public/assets/site.js:2-7 | for four-digit years `fmtYmd` has the `YYYY-MM-DD` shape: ten characters, hyphens at 4 and 7, the year, padded month and padded day in place |
| Ymd.ParseFormat | sync-ical.js:75-77 | reading back a formatted date with a four-digit year gives the date |
| Ymd.FormatParse | sync-ical.js:44-50 | formatting a read date gives the text back unless the year had a leading zero |
| Ymd.FormatInjective | public/assets/site.js:60-64 | different dates format differently, so comparing formatted days compares days |
| Ymd.FormatOrder | sync-ical.js:83 | for four-digit years, string order of formatted days is calendar order |
| Ical.DateDigits | sync-ical.js:34 | a match of the date pattern captures eight digits |
| Ical.Regroup | sync-ical.js:36-39 | the regrouped date has the `YYYY-MM-DD` shape and its digits, read in order, are the eight captured digits |
| Ical.ParseDateFromLine | sync-ical.js:32-40 | a parsed line yields a `YYYY-MM-DD`-shaped text |
| Ical.ParseDateOfShape | sync-ical.js:34-39 | every line ending in a colon, eight digits and an optional `T`, six digits and optional `Z` parses, to those digits regrouped, whatever precedes the colon |
| Ical.ParseDateHasShape | sync-ical.js:34-35 | conversely, a line that parses ends in that form, and the result is its digits regrouped; every other line gives null |
| Ical.TimeOfDayDropped | sync-ical.js:34-39 | a DATE-TIME line yields the same day as the DATE line |
| Ical.DaysFrom | sync-ical.js:46-51 | the loop visits consecutive days from the start, one per day up to and excluding the end, none when end <= start |
| Ical.DaysFromMembers | sync-ical.js:46 | a day is visited iff it lies in [start, end) |
| Ical.EnumerateDates | sync-ical.js:42-53 | something is listed only when both bounds read as days and the start comes first, since an Invalid Date compares false; `EnumerateDatesMembers` and `EnumerateDatesLength` pin the list |
| Ical.EnumerateDatesLength | sync-ical.js:46 | `enumerateDates(S, E)` has as many entries as days from S to E, none when E <= S |
| Ical.EnumerateDatesMembers | sync-ical.js:42-53 | a day's text is listed iff the day lies in [S, E); E is never listed |
| Ical.EnumerateDatesAscending | sync-ical.js:46-51 | with a four-digit start year the listed days are strictly ascending as strings |
| Ical.EnumerateDatesEntries | sync-ical.js:47-50 | every entry is the text of a valid day |
| Ical.NextDayYmd | sync-ical.js:75-77 | an unreadable start day gives unreadable text, so the loop then lists nothing; `EnumerateOneDay` shows a readable day is followed by exactly its next day |
| Ical.EventSpan | sync-ical.js:60-78 | a block yields a span iff its first `DTSTART` line parses, and the span's start then has the `YYYY-MM-DD` shape; `StartAndEndBookRange` and `MissingEndBooksStartDay` pin the end |
| Ical.NoStartNoDates | sync-ical.js:65-71 | a block whose first `DTSTART` line does not parse books nothing |
| Ical.MissingEndBooksStartDay | sync-ical.js:66-78 | a block with a start day and no usable `DTEND` books exactly its start day |
| Ical.EnumerateOneDay | sync-ical.js:75-79 | from a day to the formatted next day is a run of exactly that day |
| Ical.StartAndEndBookRange | sync-ical.js:67-81 | a block with start S and end E books a day iff it lies in [S, E) |
| Ical.BlockDates | sync-ical.js:59-81 | the days one block books; `NoStartNoDates`, `MissingEndBooksStartDay` and `StartAndEndBookRange` pin them |
| Ical.BlockDatesAreDays | sync-ical.js:79-81 | whatever a block books is the text of a valid day |
| Ical.TailIgnored | sync-ical.js:60-61 | text after a block's first `END:VEVENT` changes nothing |
| Ical.EventBodyCut | sync-ical.js:60-61 | the event body is the text before the first `END:VEVENT`, or the whole block |
| Ical.ParseIcsToBookedDates | sync-ical.js:55-84 | the output is strictly ascending (so duplicate-free) and holds exactly the days some event block books |
| Ical.BookedFromSameBlocks | sync-ical.js:57-83 | the result depends only on which blocks occur, not on their order or repetition |
| Ical.Blocks | sync-ical.js:58 | `split(/BEGIN:VEVENT/).slice(1)`; `BlocksOfFeed` and `PreambleIgnored` pin it as the texts between the markers, with the preamble dropped |
| Ical.BlocksOfFeed | sync-ical.js:58 | the event blocks of a feed assembled from blocks are those blocks |
| Ical.ReorderedFeedSameDates | sync-ical.js:57-83 | reordering or duplicating the events of a feed leaves the booked days unchanged |
| Ical.PreambleIgnored | sync-ical.js:58 | text before the first `BEGIN:VEVENT` is ignored |
| SortedStrings.Insert | sync-ical.js:80-83 | adding a day keeps the list strictly ascending and adds exactly that day |
| SortedStrings.UnionSorted | sync-ical.js:57-83 | the collected days are strictly ascending and are exactly the union of the per-block lists |
| SortedStrings.SortedUnique | sync-ical.js:83 | two strictly ascending lists with the same elements are equal: the sorted set is determined by its contents |
| Calendar.BuildMonth | public/assets/site.js:26-70 | a grid has the seven headers Sun..Sat, as many empty cells as the weekday of day 1, one cell per day of the month numbered from 1; a cell is booked iff its date's text is in the booked set and is today iff its text is today's |
| Calendar.RenderCalendar | public/assets/site.js:15-80 | there are exactly `monthsToShow` grids (none for a non-positive count); grid i is a well-formed grid of the month i months after today's |
| Calendar.GridsAreConsecutiveMonths | public/assets/site.js:22-28 | the first grid is today's month and each further grid the month after its predecessor |
| Calendar.CellsCoverMonth | public/assets/site.js:30-58 | the cells are exactly the days of the month (28 to 31 by the leap-year rule), and the day after the last cell starts the next month |
| Calendar.LeadingEmptyChains | public/assets/site.js:29-56 | each month starts on the weekday after the previous month's last day |
| Calendar.ExactlyOneToday | public/assets/site.js:16-64 | with at least one month shown, exactly one cell is marked today, and it is today's cell in the first grid |
| Calendar.OnlyDisplayedBookingsMatter | public/assets/site.js:18-63 | booked days outside the displayed months change nothing |
| Calendar.InitAvailability | public/assets/site.js:82-108 | no container or slug leaves the page unchanged; a calendar is drawn iff the response is ok, parses, and carries a non-empty `bookedDates` array, and then it is the six-month rendering of the strings in that array; a network failure, non-ok response, unparsable body or `null` body gives the not-found placeholder |
| Calendar.CalendarShowsFetchedDates | public/assets/site.js:93-100 | on a calendar view, grid i is the i-th month from today's, and a day cell is booked iff the fetched `bookedDates` array holds that day's `YYYY-MM-DD` text |
| Calendar.BookedArray | public/assets/site.js:93 | reading `data.bookedDates` fails exactly for `null`, and entries come only from an object whose `bookedDates` is that very array |
| Calendar.NoBookingsPlaceholder | public/assets/site.js:93-98 | a missing, non-array or empty `bookedDates` gives the no-data placeholder |
| Builder.NormalizeBasePath | build.js:14-20 | empty input and `/` give `/`; every result starts and ends with `/`, holds the trimmed input at index 0 or 1, and is at most two characters longer |
| Builder.NormalizeBasePathShortest | build.js:14-20 | the result is the shortest text that starts and ends with `/` and holds the trimmed input at index 0 or 1, so a slash is added only where one is missing |
| Builder.NormalizeBasePathFixpoint | build.js:15-19 | a base path already wrapped in slashes is returned unchanged |
| Builder.NormalizeBasePathIdempotent | build.js:14-20 | normalizing twice is normalizing once |
| Builder.LowerForSlug | build.js:26 | `toLowerCase()` never shortens the text, since `İ` becomes two characters; `SlugifyKeepsAlnum` shows the letters and digits it gives survive the slug |
| Builder.KeepSlugChars | build.js:27 | only letters a-z, digits, white space and `-` remain; a string of such characters is unchanged and any other single character is dropped |
| Builder.KeepSlugCharsConcat | build.js:27 | the filter acts character by character, so kept characters survive in order |
| Builder.CollapseSpaces | build.js:29 | `replace(/\s+/g, '-')`; `CollapseJoin`, `CollapseNoSpaceFixed` and `CollapseKeepsSlugChars` pin it |
| Builder.CollapseJoin | build.js:29 | a maximal white-space run becomes exactly one `-`, the text on either side collapsed on its own |
| Builder.CollapseNoSpaceFixed | build.js:29 | text without white space is unchanged |
| Builder.CollapseKeepsSlugChars | build.js:29 | once only slug characters and white space remain, the result has only slug characters |
| Builder.Slugify | build.js:24-30 | a slug uses only a-z, 0-9 and `-` |
| Builder.SlugHasNoSpace | build.js:26-29 | a slug contains no white space |
| Builder.SlugifyFixpoint | build.js:24-30 | a string already made of slug characters is its own slug |
| Builder.SlugifyIdempotent | build.js:24-30 | slugifying a slug changes nothing |
| Builder.SlugifyJoin | build.js:24-30 | two trimmed, filtered parts separated by white space slug to their own slugs joined by one `-` ("yahua - suite" gives "yahua---suite") |
| Builder.SlugifyKeepsAlnum | build.js:24-30 | the letters and digits of the lower-cased name all survive, in order |
| Builder.EscapeChar | build.js:96 | each character's replacement is never empty, contains no `<`, `>`, `"` or `'`, and is the character itself unless it is one of the five special ones |
| Builder.HtmlEscape | build.js:95-97 | the escaped text contains no `<`, `>`, `"` or `'`, is never shorter, and equals the input when it has no special character |
| Builder.HtmlEscapeRoundTrip | build.js:95-97 | decoding the five entities recovers the text: escaping loses nothing |
| Builder.HtmlEscapeInjective | build.js:95-97 | distinct texts escape differently |
| Builder.LastDot | build.js:37 | the index found holds a dot and no later index does; none means the name has no dot |
| Builder.SuffixIsExtension | build.js:37 | ending, ignoring case, in `.` plus a dot-free extension is having that extension after the last dot |
| Builder.IsImageFile | build.js:36-38 | `isImageFile`; `IsImageFileByExtension` pins it as a case-insensitive test of the extension after the last dot |
| Builder.IsImageFileByExtension | build.js:36-38 | a name is an image iff its extension is, ignoring case, jpg, jpeg, png, webp or avif |
| Builder.Upsert | build.js:225-234 | a missing or falsy entry becomes `{name, icalUrl: ""}`; an object gets the suite's name, keeps a string `icalUrl` or gets `""`, and keeps every other key; any other truthy value is left alone |
| Builder.UpsertTwice | build.js:224-235 | merging an entry twice is merging it once under the later name |
| Builder.MergeConfig | build.js:224-235 | the merged configuration has exactly the old keys plus the suites' slugs |
| Builder.MergeKeepsOthers | build.js:224-235 | entries of slugs no suite has are unchanged |
| Builder.MergeLastWins | build.js:224-235 | a suite's entry is its original entry merged under the name of the last suite with that slug |
| Builder.MergeNamesSuites | build.js:225-234 | after the merge each suite whose entry was an object or falsy has an object entry with its name and a string `icalUrl`, the existing one if it was a string |
| Builder.MergeIdempotent | build.js:224-235 | running the merge again on its output changes nothing |

## Left out

- `fetchIcs` and the two `main` functions: network, file system and process
  I/O. The redirect handling follows redirects without a hop limit; no bound
  is claimed.
- File-system plumbing of the builder (`ensureDir`, `copyAssets`,
  `copySuiteImages`, `listSuiteDirectories`, `writeFile`, the page writers,
  `ensureEmptyAvailability`), the reading and writing of `config.json`
  including the fallback to `{}` on a parse error, and JSON text itself.
- HTML template assembly (`makeBaseHtml`, `makeIndexHtml`,
  `makeListingHtml`): string concatenation around `encodeURIComponent`.
- Locale-dependent behaviour: `localeCompare` when listing suites, the month
  names from `toLocaleString`, and the DOM; the grid is a datatype.
- `addDays` in the browser script: defined but never called.
- Time zones: the model assumes a host at UTC. At a negative offset the
  synchroniser's days shift one day earlier; with daylight saving at a
  positive offset the end day can be listed.
- Ymd.ParseYmd: V8 rolls some impossible days over (February 30 becomes a
  March day) instead of giving an Invalid Date; the model gives `None` for
  every impossible date.
- Ical.MissingEndBooksStartDay: stated for start years 1000 to 9999 with the
  next day still in 9999. For a shorter year the fallback end is written
  without padding (`999-01-02`), which the model cannot read back, so such an
  event books nothing in the model; V8's lenient parser may read it.
- Ical.EnumerateDatesAscending: stated for four-digit start years, where
  string order is calendar order.
- Ymd.ParseFormat: stated for four-digit years, the only ones whose text form
  has the `YYYY-MM-DD` shape.
- Calendar.RenderCalendar: requires a year of at least 100, because
  `new Date(y, m, d)` reads years 0 to 99 as 1900 to 1999.
- Calendar.InitAvailability: same year requirement, for the same reason. The
  clock is read twice by `renderCalendar`; the model reads it once.
- Builder.SlugLower: `toLowerCase` is modelled only as far as the filter that
  follows can tell: A-Z, U+0130 and the Kelvin sign U+212A map to what the
  filter keeps; every other character stays as it is.
- Builder.MergeConfig: the configuration is a map, so key order in the written
  file is not modelled; a configuration file whose top level is not an object
  is not modelled. A slug that names a property every JS object inherits is
  treated as an ordinary key. Slugs hold only `a-z`, `0-9` and `-`, so of those
  names only `constructor` can be a slug. In the source the inherited value is
  the function `Object`, which is truthy, so no entry is created. The file runs
  in sloppy mode, so the `name` write is silently ignored, because a function's
  `name` is read-only. `icalUrl: ""` is then set on `Object` itself, and the
  written file has no entry for that slug. The builder's own slugs all start
  with `casa-yahua`, so they never hit this.
- iCalendar features the parser does not implement: line unfolding (section
  3.1 of RFC 5545), `TZID`, `DURATION`, `RRULE`.
- JS sorts by UTF-16 code units, the model by code points; the two agree on
  the ASCII strings the parser produces.

=== FILE: builder.dfy ===
/** The string helpers of the static site builder and the merge that keeps the
    per-suite configuration file in step with the suite directories. */
module Builder {
  import opened Wrappers
  import opened Text
  import opened Json

  // ---------------------------------------------------------------- normalizeBasePath

  /** `normalizeBasePath`: the URL prefix the site is served under, always
      wrapped in slashes. */
  function NormalizeBasePath(input: string): (r: string)
    ensures input == "" || input == "/" ==> r == "/"
    ensures |r| >= 1 && r[0] == '/' && r[|r| - 1] == '/'
    ensures |r| <= |Trim(input)| + 2
    ensures input != "" && input != "/" ==> OccursAt(r, Trim(input), 0) || OccursAt(r, Trim(input), 1)
  {
    if input == "" || input == "/" then "/" else WrapInSlashes(Trim(input))
  }

  /** Add a leading and a trailing slash where missing. */
  function WrapInSlashes(bp: string): (r: string)
    ensures |r| >= 1 && r[0] == '/' && r[|r| - 1] == '/'
    ensures |r| <= |bp| + 2
    ensures OccursAt(r, bp, 0) || OccursAt(r, bp, 1)
  {
    var bp' := if StartsWith(bp, "/") then bp else "/" + bp;
    assert OccursAt(bp', bp, 0) || OccursAt(bp', bp, 1) by {
      if !StartsWith(bp, "/") { assert bp'[1..1 + |bp|] == bp; }
    }
    if EndsWith(bp', "/") then bp'
    else
      assert (bp' + "/")[..|bp'|] == bp';
      bp' + "/"
  }

  /** A base path that is already trimmed and wrapped in slashes is kept as is. */
  lemma NormalizeBasePathFixpoint(bp: string)
    requires |bp| >= 1 && bp[0] == '/' && bp[|bp| - 1] == '/'
    ensures NormalizeBasePath(bp) == bp
  {
    TrimmedFixpoint(bp);
  }

  /** No shorter text starts and ends with `/` and holds the trimmed input at
      index 0 or 1: a slash is added only where one is missing. */
  lemma NormalizeBasePathShortest(input: string, r': string)
    requires input != "" && input != "/"
    requires |r'| >= 1 && r'[0] == '/' && r'[|r'| - 1] == '/'
    requires OccursAt(r', Trim(input), 0) || OccursAt(r', Trim(input), 1)
    ensures |NormalizeBasePath(input)| <= |r'|
  {
    var t := Trim(input);
    WrapLength(t);
    if OccursAt(r', t, 0) {
      WrappedAtLeastAt0(t, r');
    } else {
      WrappedAtLeastAt1(t, r');
    }
  }

  /** The slashes a path still lacks: one in front unless it starts with `/`,
      one at the end unless it is empty or ends with `/`. */
  function MissingSlashes(t: string): nat {
    (if |t| > 0 && t[0] == '/' then 0 else 1) + (if |t| > 0 && t[|t| - 1] != '/' then 1 else 0)
  }

  lemma WrapLength(t: string)
    ensures |WrapInSlashes(t)| == |t| + MissingSlashes(t)
  {
    var bp' := if StartsWith(t, "/") then t else "/" + t;
    assert StartsWith(t, "/") <==> |t| > 0 && t[0] == '/' by {
      if |t| > 0 { assert t[..1] == [t[0]]; }
    }
    assert bp'[|bp'| - 1] == if |t| > 0 then t[|t| - 1] else '/';
    assert EndsWith(bp', "/") <==> bp'[|bp'| - 1] == '/' by {
      assert bp'[|bp'| - 1..] == [bp'[|bp'| - 1]];
    }
  }

  lemma WrappedAtLeastAt0(t: string, r': string)
    requires |r'| >= 1 && r'[0] == '/' && r'[|r'| - 1] == '/' && OccursAt(r', t, 0)
    ensures |r'| >= |t| + MissingSlashes(t)
  {
    if |t| > 0 {
      assert r'[0] == t[0];
      assert r'[|t| - 1] == t[|t| - 1];
    }
  }

  lemma WrappedAtLeastAt1(t: string, r': string)
    requires |r'| >= 1 && r'[|r'| - 1] == '/' && OccursAt(r', t, 1)
    ensures |r'| >= |t| + MissingSlashes(t)
  {
    if |t| > 0 {
      assert r'[|t|] == t[|t| - 1];
    }
  }

  lemma NormalizeBasePathIdempotent(input: string)
    ensures NormalizeBasePath(NormalizeBasePath(input)) == NormalizeBasePath(input)
  {
    NormalizeBasePathFixpoint(NormalizeBasePath(input));
  }

  // ---------------------------------------------------------------- slugify

  /** The characters a slug is made of. */
  predicate IsSlugChar(c: char) {
    'a' <= c <= 'z' || '0' <= c <= '9' || c == '-'
  }

  /** The characters `/[^a-z0-9\s-]/g` keeps. */
  predicate KeepsInSlug(c: char) {
    IsSlugChar(c) || IsJsSpace(c)
  }

  /** `toLowerCase` of one character as far as the filter that follows can tell:
      A-Z become a-z; U+0130 (capital I with dot) becomes `i` and a combining dot;
      the Kelvin sign U+212A becomes `k`; every other character is kept as it
      is, which the filter cannot tell apart from its lower case. */
  function SlugLower(c: char): string {
    if 'A' <= c <= 'Z' then [(c as int + 32) as char]
    else if c == '\U{130}' then ['i', '\U{307}']
    else if c == '\U{212A}' then ['k']
    else [c]
  }

  function LowerForSlug(s: string): (r: string)
    ensures |r| >= |s|
  {
    if |s| == 0 then [] else SlugLower(s[0]) + LowerForSlug(s[1..])
  }

  /** `.replace(/[^a-z0-9\s-]/g, '')`: a character the filter keeps survives, one
      it does not keep is dropped; with `KeepSlugCharsConcat` this fixes the
      result character by character. */
  function KeepSlugChars(s: string): (r: string)
    ensures AllKept(r) && |r| <= |s|
    ensures AllKept(s) ==> r == s
    ensures |s| == 1 && !KeepsInSlug(s[0]) ==> r == []
  {
    if |s| == 0 then []
    else
      AllKeptSuffix(s, 1);
      (if KeepsInSlug(s[0]) then [s[0]] else []) + KeepSlugChars(s[1..])
  }

  /** The filter looks at one character at a time. */
  lemma {:induction false} KeepSlugCharsConcat(a: string, b: string)
    ensures KeepSlugChars(a + b) == KeepSlugChars(a) + KeepSlugChars(b)
    decreases |a|
  {
    if |a| == 0 {
      assert a + b == b;
    } else {
      var p := if KeepsInSlug(a[0]) then [a[0]] else [];
      assert (a + b)[0] == a[0] && (a + b)[1..] == a[1..] + b;
      assert KeepSlugChars(a + b) == p + KeepSlugChars(a[1..] + b);
      KeepSlugCharsConcat(a[1..], b);
      assert p + (KeepSlugChars(a[1..]) + KeepSlugChars(b))
        == (p + KeepSlugChars(a[1..])) + KeepSlugChars(b);
    }
  }

  /** `.replace(/\s+/g, '-')`: each maximal run of white space becomes one `-`
      (`CollapseJoin`); text without white space is unchanged
      (`CollapseNoSpaceFixed`); filtered text gives slug characters only
      (`CollapseKeepsSlugChars`). */
  function CollapseSpaces(s: string): string {
    CollapseFrom(s, false)
  }

  /** One left-to-right pass of the replacement; `inRun` says whether the
      previous character was white space, whose run has already written its `-`. */
  function CollapseFrom(s: string, inRun: bool): string {
    if |s| == 0 then []
    else if IsJsSpace(s[0]) then (if inRun then "" else "-") + CollapseFrom(s[1..], true)
    else [s[0]] + CollapseFrom(s[1..], false)
  }

  lemma {:induction false} CollapseKeepsSlugChars(s: string, inRun: bool)
    requires AllKept(s)
    ensures AllSlugChars(CollapseFrom(s, inRun))
  {
    if |s| > 0 {
      AllKeptSuffix(s, 1);
      CollapseKeepsSlugChars(s[1..], IsJsSpace(s[0]));
    }
  }

  lemma {:induction false} CollapseNoSpaceFixed(s: string)
    requires NoSpace(s)
    ensures CollapseSpaces(s) == s
  {
    if |s| > 0 {
      NoSpaceTail(s);
      CollapseNoSpaceFixed(s[1..]);
    }
  }

  lemma NoSpaceTail(s: string)
    requires |s| > 0 && NoSpace(s)
    ensures NoSpace(s[1..])
  {
    forall i | 0 <= i < |s| - 1 ensures !IsJsSpace(s[1..][i]) {
      assert s[1..][i] == s[i + 1];
    }
  }

  /** A white-space run between text that does not touch it with white space
      becomes exactly one `-`, and the text on either side is collapsed on its own. */
  lemma CollapseJoin(a: string, w: string, b: string)
    requires |w| > 0 && AllSpace(w)
    requires |a| > 0 ==> !IsJsSpace(a[|a| - 1])
    requires |b| > 0 ==> !IsJsSpace(b[0])
    ensures CollapseSpaces(a + w + b) == CollapseSpaces(a) + "-" + CollapseSpaces(b)
  {
    CollapseFromJoin(a, w, b, false);
  }

  /** `CollapseJoin` from any point of the pass: after text that ends outside a
      run, the run writes its one `-`. */
  lemma {:induction false} CollapseFromJoin(a: string, w: string, b: string, inRun: bool)
    requires |w| > 0 && AllSpace(w)
    requires |a| > 0 ==> !IsJsSpace(a[|a| - 1])
    requires |a| == 0 ==> !inRun
    requires |b| > 0 ==> !IsJsSpace(b[0])
    ensures CollapseFrom(a + w + b, inRun) == CollapseFrom(a, inRun) + "-" + CollapseFrom(b, false)
    decreases |a|
  {
    var s := a + w + b;
    if |a| == 0 {
      assert s == w + b;
      assert s[0] == w[0] && s[1..] == w[1..] + b;
      AllSpaceTail(w);
      CollapseRunThen(w[1..], b);
    } else {
      var a1 := a[1..];
      assert s[0] == a[0] && s[1..] == a1 + w + b;
      CollapseFromJoin(a1, w, b, IsJsSpace(a[0]));
      var p := if IsJsSpace(a[0]) then (if inRun then "" else "-") else [a[0]];
      assert p + (CollapseFrom(a1, IsJsSpace(a[0])) + "-" + CollapseFrom(b, false))
        == (p + CollapseFrom(a1, IsJsSpace(a[0]))) + "-" + CollapseFrom(b, false);
    }
  }

  /** Inside a run, further white space writes nothing, and the run ends at the
      first other character. */
  lemma {:induction false} CollapseRunThen(w: string, b: string)
    requires AllSpace(w)
    requires |b| > 0 ==> !IsJsSpace(b[0])
    ensures CollapseFrom(w + b, true) == CollapseFrom(b, false)
    decreases |w|
  {
    if |w| == 0 {
      assert w + b == b;
    } else {
      assert (w + b)[0] == w[0] && (w + b)[1..] == w[1..] + b;
      AllSpaceTail(w);
      CollapseRunThen(w[1..], b);
    }
  }

  predicate AllKept(s: string) {
    forall i :: 0 <= i < |s| ==> KeepsInSlug(s[i])
  }

  lemma AllKeptSuffix(s: string, k: nat)
    requires k <= |s|
    ensures AllKept(s) ==> AllKept(s[k..])
  {
    if AllKept(s) {
      forall i | 0 <= i < |s| - k ensures KeepsInSlug(s[k..][i]) {
        assert s[k..][i] == s[k + i];
      }
    }
  }

  /** `slugify`: lower-cases, drops everything but letters, digits, white space
      and `-`, trims, and turns white-space runs into `-`. */
  function Slugify(name: string): (r: string)
    ensures AllSlugChars(r)
  {
    var t := Trim(KeepSlugChars(LowerForSlug(name)));
    CollapseKeepsSlugChars(t, false);
    CollapseSpaces(t)
  }

  predicate AllSlugChars(s: string) {
    forall i :: 0 <= i < |s| ==> IsSlugChar(s[i])
  }

  lemma SlugCharsAreNoSpace(s: string)
    requires AllSlugChars(s)
    ensures NoSpace(s)
  {
    forall i | 0 <= i < |s| ensures !IsJsSpace(s[i]) {
      assert IsSlugChar(s[i]);
    }
  }

  /** A string made of slug characters only is its own slug. */
  lemma SlugifyFixpoint(s: string)
    requires AllSlugChars(s)
    ensures Slugify(s) == s
  {
    assert AllKept(s);
    LowerKeptFixed(s);
    TrimmedFixpoint(s);
    SlugCharsAreNoSpace(s);
    CollapseNoSpaceFixed(s);
  }

  /** `toLowerCase` leaves the characters the filter keeps as they are. */
  lemma {:induction false} LowerKeptFixed(s: string)
    requires AllKept(s)
    ensures LowerForSlug(s) == s
  {
    if |s| > 0 {
      AllKeptSuffix(s, 1);
      LowerKeptFixed(s[1..]);
    }
  }

  /** Two trimmed, already filtered parts of a name separated by a white-space
      run give their own slugs joined by one `-`: "yahua - suite" becomes
      "yahua---suite", "casa  azul" becomes "casa-azul". */
  lemma SlugifyJoin(a: string, w: string, b: string)
    requires AllKept(a) && |a| > 0 && !IsJsSpace(a[0]) && !IsJsSpace(a[|a| - 1])
    requires AllKept(b) && |b| > 0 && !IsJsSpace(b[0]) && !IsJsSpace(b[|b| - 1])
    requires |w| > 0 && AllSpace(w)
    ensures Slugify(a + w + b) == Slugify(a) + "-" + Slugify(b)
  {
    var s := a + w + b;
    assert AllKept(s) by {
      forall i | 0 <= i < |s| ensures KeepsInSlug(s[i]) {
        if i < |a| { assert s[i] == a[i]; }
        else if i < |a| + |w| { assert s[i] == w[i - |a|]; }
        else { assert s[i] == b[i - |a| - |w|]; }
      }
    }
    LowerKeptFixed(s);
    LowerKeptFixed(a);
    LowerKeptFixed(b);
    TrimmedFixpoint(s);
    TrimmedFixpoint(a);
    TrimmedFixpoint(b);
    CollapseJoin(a, w, b);
  }

  /** A slug contains no white space. */
  lemma SlugHasNoSpace(name: string)
    ensures forall i :: 0 <= i < |Slugify(name)| ==> !IsJsSpace(Slugify(name)[i])
  {
    var r := Slugify(name);
    forall i | 0 <= i < |r| ensures !IsJsSpace(r[i]) {
      assert IsSlugChar(r[i]);
    }
  }

  lemma SlugifyIdempotent(name: string)
    ensures Slugify(Slugify(name)) == Slugify(name)
  {
    SlugifyFixpoint(Slugify(name));
  }

  predicate IsAlnum(c: char) {
    'a' <= c <= 'z' || '0' <= c <= '9'
  }

  /** The letters and digits of a string, in order. */
  function AlnumOf(s: string): string {
    if |s| == 0 then [] else (if IsAlnum(s[0]) then [s[0]] else []) + AlnumOf(s[1..])
  }

  lemma {:induction false} AlnumOfConcat(a: string, b: string)
    ensures AlnumOf(a + b) == AlnumOf(a) + AlnumOf(b)
  {
    if |a| == 0 {
      assert a + b == b;
    } else {
      var p := if IsAlnum(a[0]) then [a[0]] else [];
      assert (a + b)[0] == a[0] && (a + b)[1..] == a[1..] + b;
      assert AlnumOf(a + b) == p + AlnumOf(a[1..] + b);
      AlnumOfConcat(a[1..], b);
      assert p + (AlnumOf(a[1..]) + AlnumOf(b)) == (p + AlnumOf(a[1..])) + AlnumOf(b);
    }
  }

  lemma {:induction false} AlnumOfSpaces(s: string)
    requires forall i :: 0 <= i < |s| ==> IsJsSpace(s[i])
    ensures AlnumOf(s) == []
  {
    if |s| > 0 {
      AlnumOfSpaces(s[1..]);
    }
  }

  lemma {:induction false} AlnumOfKept(s: string)
    ensures AlnumOf(KeepSlugChars(s)) == AlnumOf(s)
  {
    if |s| > 0 {
      var h := if KeepsInSlug(s[0]) then [s[0]] else [];
      AlnumOfConcat(h, KeepSlugChars(s[1..]));
      AlnumOfKept(s[1..]);
    }
  }

  lemma AlnumOfTrimStart(s: string)
    ensures AlnumOf(TrimStart(s)) == AlnumOf(s)
  {
    var t := TrimStart(s);
    var n := |s| - |t|;
    assert s == s[..n] + t;
    AlnumOfSpaces(s[..n]);
    AlnumOfConcat(s[..n], t);
  }

  lemma AlnumOfTrimEnd(t: string)
    ensures AlnumOf(TrimEnd(t)) == AlnumOf(t)
  {
    var u := TrimEnd(t);
    assert t == u + t[|u|..];
    AlnumOfSpaces(t[|u|..]);
    AlnumOfConcat(u, t[|u|..]);
  }

  lemma AlnumOfTrim(s: string)
    ensures AlnumOf(Trim(s)) == AlnumOf(s)
  {
    AlnumOfTrimStart(s);
    AlnumOfTrimEnd(TrimStart(s));
  }

  lemma {:induction false} AlnumOfCollapse(s: string, inRun: bool)
    ensures AlnumOf(CollapseFrom(s, inRun)) == AlnumOf(s)
  {
    if |s| > 0 {
      var p := if IsJsSpace(s[0]) then (if inRun then "" else "-") else [s[0]];
      AlnumOfCollapse(s[1..], IsJsSpace(s[0]));
      AlnumOfConcat(p, CollapseFrom(s[1..], IsJsSpace(s[0])));
    }
  }

  /** No letter or digit of the lower-cased name is lost or reordered. */
  lemma SlugifyKeepsAlnum(name: string)
    ensures AlnumOf(Slugify(name)) == AlnumOf(LowerForSlug(name))
  {
    var k := KeepSlugChars(LowerForSlug(name));
    AlnumOfKept(LowerForSlug(name));
    AlnumOfTrim(k);
    AlnumOfCollapse(Trim(k), false);
  }

  // ---------------------------------------------------------------- htmlEscape

  predicate IsHtmlSpecial(c: char) {
    c == '&' || c == '<' || c == '>' || c == '"' || c == '\''
  }

  /** The fixed entity of each of the five special characters. */
  function EscapeChar(c: char): (r: string)
    ensures |r| >= 1 && NoRawMarkup(r)
    ensures !IsHtmlSpecial(c) ==> r == [c]
  {
    match c
    case '&' => "&amp;"
    case '<' => "&lt;"
    case '>' => "&gt;"
    case '"' => "&quot;"
    case '\'' => "&#39;"
    case _ => [c]
  }

  predicate NoRawMarkup(r: string) {
    forall i :: 0 <= i < |r| ==> r[i] != '<' && r[i] != '>' && r[i] != '"' && r[i] != '\''
  }

  /** `htmlEscape`. */
  function HtmlEscape(s: string): (r: string)
    ensures NoRawMarkup(r)
    ensures |r| >= |s|
    ensures (forall i :: 0 <= i < |s| ==> !IsHtmlSpecial(s[i])) ==> r == s
  {
    if |s| == 0 then [] else EscapeChar(s[0]) + HtmlEscape(s[1..])
  }

  /** Decodes the five entities `HtmlEscape` writes; the reference against which
      escaping is checked to lose nothing. */
  function HtmlUnescape(s: string): string
    decreases |s|
  {
    if |s| == 0 then []
    else if StartsWith(s, "&amp;") then "&" + HtmlUnescape(s[5..])
    else if StartsWith(s, "&lt;") then "<" + HtmlUnescape(s[4..])
    else if StartsWith(s, "&gt;") then ">" + HtmlUnescape(s[4..])
    else if StartsWith(s, "&quot;") then "\"" + HtmlUnescape(s[6..])
    else if StartsWith(s, "&#39;") then "'" + HtmlUnescape(s[5..])
    else [s[0]] + HtmlUnescape(s[1..])
  }

  lemma DiffersAt(s: string, p: string, k: nat)
    ensures k < |p| && k < |s| && s[k] != p[k] ==> !StartsWith(s, p)
  {
  }

  lemma UnescapeChar(c: char, t: string)
    ensures HtmlUnescape(EscapeChar(c) + t) == [c] + HtmlUnescape(t)
  {
    if IsHtmlSpecial(c) {
      UnescapeSpecial(c, t);
    } else {
      UnescapePlain(c, t);
    }
  }

  lemma UnescapeSpecial(c: char, t: string)
    requires IsHtmlSpecial(c)
    ensures HtmlUnescape(EscapeChar(c) + t) == [c] + HtmlUnescape(t)
  {
    var e := EscapeChar(c) + t;
    var n := |EscapeChar(c)|;
    assert e[..n] == EscapeChar(c) && e[n..] == t;
    if c != '&' {
      // The second character tells the five entities apart.
      DiffersAt(e, "&amp;", 1);
      DiffersAt(e, "&lt;", 1);
      DiffersAt(e, "&gt;", 1);
      DiffersAt(e, "&quot;", 1);
    }
  }

  lemma UnescapePlain(c: char, t: string)
    requires !IsHtmlSpecial(c)
    ensures HtmlUnescape(EscapeChar(c) + t) == [c] + HtmlUnescape(t)
  {
    var e := [c] + t;
    assert e[0] == c && e[1..] == t;
    DiffersAt(e, "&amp;", 0);
    DiffersAt(e, "&lt;", 0);
    DiffersAt(e, "&gt;", 0);
    DiffersAt(e, "&quot;", 0);
    DiffersAt(e, "&#39;", 0);
  }

  /** Escaping loses nothing: decoding the entities gives the text back. */
  lemma {:induction false} HtmlEscapeRoundTrip(s: string)
    ensures HtmlUnescape(HtmlEscape(s)) == s
  {
    if |s| > 0 {
      UnescapeChar(s[0], HtmlEscape(s[1..]));
      HtmlEscapeRoundTrip(s[1..]);
    }
  }

  lemma HtmlEscapeInjective(a: string, b: string)
    requires HtmlEscape(a) == HtmlEscape(b)
    ensures a == b
  {
    HtmlEscapeRoundTrip(a);
    HtmlEscapeRoundTrip(b);
  }

  // ---------------------------------------------------------------- isImageFile

  /** Case-insensitive suffix test, as the `/i` flag makes the pattern behave on
      these ASCII suffixes. */
  predicate EndsWithIgnoringCase(s: string, suffix: string) {
    EndsWith(LowerAscii(s), suffix)
  }

  /** `isImageFile`. */
  predicate IsImageFile(fileName: string) {
    || EndsWithIgnoringCase(fileName, ".jpg")
    || EndsWithIgnoringCase(fileName, ".jpeg")
    || EndsWithIgnoringCase(fileName, ".png")
    || EndsWithIgnoringCase(fileName, ".webp")
    || EndsWithIgnoringCase(fileName, ".avif")
  }

  const ImageExtensions: seq<string> := ["jpg", "jpeg", "png", "webp", "avif"]

  /** Index of the last `.` of a name. */
  function LastDot(s: string): (r: Option<nat>)
    ensures r.Some? ==> r.value < |s| && s[r.value] == '.' && forall j :: r.value < j < |s| ==> s[j] != '.'
    ensures r.None? ==> forall j :: 0 <= j < |s| ==> s[j] != '.'
  {
    if |s| == 0 then None
    else if s[|s| - 1] == '.' then Some(|s| - 1)
    else LastDot(s[..|s| - 1])
  }

  /** The extension of a file name: what follows its last dot. */
  function Extension(s: string): Option<string> {
    match LastDot(s)
    case None => None
    case Some(p) => Some(s[p + 1..])
  }

  lemma LowerAsciiSlice(s: string, k: nat)
    requires k <= |s|
    ensures LowerAscii(s)[k..] == LowerAscii(s[k..])
  {
  }

  /** For a dot-free lower-case extension, the name ends in `.ext` ignoring case
      exactly when its last-dot extension is `ext` ignoring case. */
  lemma SuffixIsExtension(s: string, ext: string)
    requires forall i :: 0 <= i < |ext| ==> ext[i] != '.'
    ensures EndsWithIgnoringCase(s, "." + ext) <==>
      Extension(s).Some? && LowerAscii(Extension(s).value) == ext
  {
    if EndsWithIgnoringCase(s, "." + ext) {
      SuffixGivesExtension(s, ext);
    }
    if Extension(s).Some? && LowerAscii(Extension(s).value) == ext {
      ExtensionGivesSuffix(s, ext);
    }
  }

  lemma SuffixGivesExtension(s: string, ext: string)
    requires forall i :: 0 <= i < |ext| ==> ext[i] != '.'
    requires EndsWithIgnoringCase(s, "." + ext)
    ensures Extension(s).Some? && LowerAscii(Extension(s).value) == ext
  {
    var p := |s| - |ext| - 1;
    LoweredSuffixParts(s, ext);
    LastDotIs(s, p);
  }

  /** Where the lowered name ends in `.ext`: a dot, then no further dot, then
      text that lowers to `ext`. */
  lemma LoweredSuffixParts(s: string, ext: string)
    requires forall i :: 0 <= i < |ext| ==> ext[i] != '.'
    requires EndsWithIgnoringCase(s, "." + ext)
    ensures var p := |s| - |ext| - 1;
      && s[p] == '.' && (forall j :: p < j < |s| ==> s[j] != '.')
      && LowerAscii(s[p + 1..]) == ext
  {
    var p := |s| - |ext| - 1;
    LoweredDotAt(s, ext);
    NoDotInLoweredTail(s, ext, p);
    LoweredTail(s, ext, p);
  }

  lemma LoweredDotAt(s: string, ext: string)
    requires EndsWithIgnoringCase(s, "." + ext)
    ensures var p := |s| - |ext| - 1;
      s[p] == '.' && LowerAscii(s)[p..] == "." + ext
  {
    var l, p := LowerAscii(s), |s| - |ext| - 1;
    assert l[p..] == "." + ext;
    assert l[p] == ("." + ext)[0];
  }

  lemma LoweredTail(s: string, ext: string, p: nat)
    requires p + 1 + |ext| == |s| && LowerAscii(s)[p..] == "." + ext
    ensures LowerAscii(s[p + 1..]) == ext
  {
    var l := LowerAscii(s);
    LowerAsciiSlice(s, p + 1);
    assert l[p + 1..] == l[p..][1..];
  }

  /** When the lowered text ends in `.` and a dot-free `ext`, nothing after that
      dot is a dot. */
  lemma NoDotInLoweredTail(s: string, ext: string, p: nat)
    requires forall i :: 0 <= i < |ext| ==> ext[i] != '.'
    requires p + 1 + |ext| == |s| && LowerAscii(s)[p..] == "." + ext
    ensures forall j :: p < j < |s| ==> s[j] != '.'
  {
    var l, suffix := LowerAscii(s), "." + ext;
    forall j | p < j < |s| ensures s[j] != '.' {
      assert l[j] == l[p..][j - p] == suffix[j - p] == ext[j - p - 1];
    }
  }

  lemma LastDotIs(s: string, p: nat)
    requires p < |s| && s[p] == '.' && forall j :: p < j < |s| ==> s[j] != '.'
    ensures LastDot(s) == Some(p)
  {
  }

  lemma ExtensionGivesSuffix(s: string, ext: string)
    requires Extension(s).Some? && LowerAscii(Extension(s).value) == ext
    ensures EndsWithIgnoringCase(s, "." + ext)
  {
    var l := LowerAscii(s);
    {
      var p := LastDot(s).value;
      LowerAsciiSlice(s, p + 1);
      assert l[p..] == "." + ext;
    }
  }

  /** `isImageFile` holds exactly for names whose extension is, ignoring case,
      one of jpg, jpeg, png, webp, avif. */
  lemma IsImageFileByExtension(fileName: string)
    ensures IsImageFile(fileName) <==>
      Extension(fileName).Some? && LowerAscii(Extension(fileName).value) in ImageExtensions
  {
    SuffixIsExtension(fileName, "jpg");
    SuffixIsExtension(fileName, "jpeg");
    SuffixIsExtension(fileName, "png");
    SuffixIsExtension(fileName, "webp");
    SuffixIsExtension(fileName, "avif");
    assert "." + "jpg" == ".jpg";
    assert "." + "jpeg" == ".jpeg";
    assert "." + "png" == ".png";
    assert "." + "webp" == ".webp";
    assert "." + "avif" == ".avif";
  }

  // ---------------------------------------------------------------- ensureConfig merge

  /** A suite directory as the builder lists it. */
  datatype Suite = Suite(name: string, slug: string)

  /** The parsed configuration file: one entry per slug. */
  type Config = map<string, Json>

  function NewEntry(name: string): Json {
    JObj(map["name" := JStr(name), "icalUrl" := JStr("")])
  }

  /** One iteration of the merge loop on the entry of the suite's slug (`None`
      when the slug has no entry). A falsy or missing entry is replaced; an object
      gets the suite's name and keeps a string `icalUrl`; any other truthy value
      is left as it is, since setting a property on it changes nothing that
      `JSON.stringify` writes. */
  function Upsert(entry: Option<Json>, name: string): (r: Json)
    ensures entry.None? || !Truthy(entry.value) ==> r == NewEntry(name)
    ensures entry.Some? && entry.value.JObj? ==>
      var f := entry.value.fields;
      && r.JObj? && r.fields.Keys == f.Keys + {"name", "icalUrl"}
      && r.fields["name"] == JStr(name)
      && r.fields["icalUrl"] == (if "icalUrl" in f && f["icalUrl"].JStr? then f["icalUrl"] else JStr(""))
      && forall k :: k in f && k != "name" && k != "icalUrl" ==> r.fields[k] == f[k]
    ensures entry.Some? && Truthy(entry.value) && !entry.value.JObj? ==> r == entry.value
  {
    match entry
    case None => NewEntry(name)
    case Some(v) =>
      if !Truthy(v) then NewEntry(name)
      else if v.JObj? then
        var f := v.fields["name" := JStr(name)];
        JObj(f["icalUrl" := if "icalUrl" in f && f["icalUrl"].JStr? then f["icalUrl"] else JStr("")])
      else v
  }

  /** Merging twice under two names is merging once under the later name. */
  lemma UpsertTwice(entry: Option<Json>, n1: string, n2: string)
    ensures Upsert(Some(Upsert(entry, n1)), n2) == Upsert(entry, n2)
  {
    var r1, r2 := Upsert(Some(Upsert(entry, n1)), n2), Upsert(entry, n2);
    if r1.JObj? {
      assert r1.fields == r2.fields;
    }
  }

  function Lookup(c: Config, k: string): Option<Json> {
    if k in c then Some(c[k]) else None
  }

  /** The `for (const suite of suites)` loop of `ensureConfig`. */
  function MergeConfig(current: Config, suites: seq<Suite>): (r: Config)
    ensures r.Keys == current.Keys + set i | 0 <= i < |suites| :: suites[i].slug
    decreases |suites|
  {
    if |suites| == 0 then current
    else
      var s := suites[0];
      MergeConfig(current[s.slug := Upsert(Lookup(current, s.slug), s.name)], suites[1..])
  }

  predicate NoSuiteHasSlug(suites: seq<Suite>, k: string) {
    forall i :: 0 <= i < |suites| ==> suites[i].slug != k
  }

  /** Entries of slugs that belong to no current suite are left alone. */
  lemma {:induction false} MergeKeepsOthers(current: Config, suites: seq<Suite>, k: string)
    requires NoSuiteHasSlug(suites, k)
    ensures Lookup(MergeConfig(current, suites), k) == Lookup(current, k)
    decreases |suites|
  {
    if |suites| > 0 {
      var s := suites[0];
      assert NoSuiteHasSlug(suites[1..], k) by {
        forall i | 0 <= i < |suites| - 1 ensures suites[1..][i].slug != k {
          assert suites[1..][i] == suites[i + 1];
        }
      }
      MergeKeepsOthers(current[s.slug := Upsert(Lookup(current, s.slug), s.name)], suites[1..], k);
    }
  }

  /** The entry of a suite's slug is the original entry merged under the name of
      the last suite with that slug. */
  lemma {:induction false} MergeLastWins(current: Config, suites: seq<Suite>, i: int)
    requires 0 <= i < |suites|
    requires NoSuiteHasSlug(suites[i + 1..], suites[i].slug)
    ensures Lookup(MergeConfig(current, suites), suites[i].slug) == Some(Upsert(Lookup(current, suites[i].slug), suites[i].name))
    decreases |suites|
  {
    var s := suites[0];
    var next := current[s.slug := Upsert(Lookup(current, s.slug), s.name)];
    if i == 0 {
      assert suites[1..] == suites[i + 1..];
      MergeKeepsOthers(next, suites[1..], s.slug);
    } else {
      assert suites[1..][i - 1] == suites[i];
      assert suites[1..][i - 1 + 1..] == suites[i + 1..];
      MergeLastWins(next, suites[1..], i - 1);
      if s.slug == suites[i].slug {
        UpsertTwice(Lookup(current, s.slug), s.name, suites[i].name);
      }
    }
  }

  /** After the merge every suite whose entry was an object or falsy has an object
      entry carrying its name (the last suite's, for a repeated slug) and a string
      `icalUrl`: the existing string if there was one, `""` otherwise. */
  lemma MergeNamesSuites(current: Config, suites: seq<Suite>, i: int)
    requires 0 <= i < |suites|
    requires NoSuiteHasSlug(suites[i + 1..], suites[i].slug)
    requires var prior := Lookup(current, suites[i].slug); prior.None? || !Truthy(prior.value) || prior.value.JObj?
    ensures var k := suites[i].slug; var r := MergeConfig(current, suites);
      var prior := Lookup(current, k);
      && k in r && r[k].JObj? && "name" in r[k].fields && r[k].fields["name"] == JStr(suites[i].name)
      && "icalUrl" in r[k].fields
      && r[k].fields["icalUrl"] ==
           if prior.Some? && prior.value.JObj? && "icalUrl" in prior.value.fields && prior.value.fields["icalUrl"].JStr?
           then prior.value.fields["icalUrl"] else JStr("")
  {
    MergeLastWins(current, suites, i);
  }

  /** Running the merge on its own output changes nothing. */
  lemma MergeIdempotent(current: Config, suites: seq<Suite>)
    ensures MergeConfig(MergeConfig(current, suites), suites) == MergeConfig(current, suites)
  {
    var once := MergeConfig(current, suites);
    var twice := MergeConfig(once, suites);
    forall k | k in twice
      ensures k in once && twice[k] == once[k]
    {
      if NoSuiteHasSlug(suites, k) {
        MergeKeepsOthers(once, suites, k);
      } else {
        var i := LastWithSlug(suites, k);
        MergeLastWins(current, suites, i);
        MergeLastWins(once, suites, i);
        UpsertTwice(Lookup(current, k), suites[i].name, suites[i].name);
      }
    }
  }

  /** The position of the last suite with a slug. */
  function LastWithSlug(suites: seq<Suite>, k: string): (i: int)
    requires !NoSuiteHasSlug(suites, k)
    ensures 0 <= i < |suites| && suites[i].slug == k && NoSuiteHasSlug(suites[i + 1..], k)
  {
    if suites[|suites| - 1].slug == k then |suites| - 1
    else
      assert !NoSuiteHasSlug(suites[..|suites| - 1], k) by {
        var j :| 0 <= j < |suites| && suites[j].slug == k;
        assert suites[..|suites| - 1][j] == suites[j];
      }
      var i := LastWithSlug(suites[..|suites| - 1], k);
      assert suites[i + 1..] == suites[..|suites| - 1][i + 1..] + [suites[|suites| - 1]];
      i
  }
}

=== FILE: calendar.dfy ===
/** The availability renderer of the listing page: month grids built from a
    reference day and the booked days, and the choice between a grid and a
    placeholder. The DOM it writes is modelled as the `MonthGrid` values. */
module Calendar {
  import opened Wrappers
  import opened Civil
  import opened Ymd
  import opened Json

  const WeekdayHeaders: seq<string> := ["Sun", "Mon", "Tue", "Wed", "Thu", "Fri", "Sat"]

  /** One `day` cell: its number, and whether it carries the `booked` and
      `today` classes. */
  datatype DayCell = DayCell(num: int, booked: bool, today: bool)

  /** One `month` element: its year and month (the title), the weekday headers,
      the number of leading `day empty` cells, and the day cells in order. */
  datatype MonthGrid = MonthGrid(year: int, month: int, headers: seq<string>, leadingEmpty: int, days: seq<DayCell>)

  function DayCellFor(y: int, m: int, k: int, booked: set<string>, todayYmd: string): DayCell
    requires Valid(Date(y, m, k))
  {
    var ymd := Format(Date(y, m, k));
    DayCell(k, ymd in booked, ymd == todayYmd)
  }

  /** The body of the `for (let i ...)` loop of `renderCalendar` for month (y, m). */
  function BuildMonth(y: int, m: int, booked: set<string>, todayYmd: string): (g: MonthGrid)
    requires 0 <= y && 1 <= m <= 12
    ensures g.year == y && g.month == m && WellFormedGrid(g)
    ensures forall k :: 0 <= k < |g.days| ==>
      Valid(CellDate(g, k))
      && (g.days[k].booked <==> Format(CellDate(g, k)) in booked)
      && (g.days[k].today <==> Format(CellDate(g, k)) == todayYmd)
  {
    var n := DaysInMonth(y, m);
    MonthGrid(y, m, WeekdayHeaders, Weekday(Date(y, m, 1)),
      seq(n, k requires 0 <= k < n => DayCellFor(y, m, k + 1, booked, todayYmd)))
  }

  /** The grid shape every month has: seven headers Sun..Sat, as many empty cells
      as the weekday of day 1 (0 = Sunday), then the cells numbered 1, 2, ... */
  predicate WellFormedGrid(g: MonthGrid) {
    && 0 <= g.year && 1 <= g.month <= 12
    && g.headers == WeekdayHeaders
    && 0 <= g.leadingEmpty < 7
    && g.leadingEmpty == Weekday(Date(g.year, g.month, 1))
    && |g.days| == DaysInMonth(g.year, g.month)
    && forall k :: 0 <= k < |g.days| ==> g.days[k].num == k + 1
  }

  /** The date of the k-th day cell (k from 0) of a grid. */
  function CellDate(g: MonthGrid, k: int): Date {
    Date(g.year, g.month, k + 1)
  }

  /** `renderCalendar(container, bookedDates, monthsToShow)` with the clock
      reading `today` passed in. */
  function RenderCalendar(today: Date, booked: set<string>, monthsToShow: int): (r: seq<MonthGrid>)
    requires Valid(today) && today.year >= 100
    ensures |r| == if monthsToShow > 0 then monthsToShow else 0
    ensures forall i :: 0 <= i < |r| ==>
      var ym := MonthAfter(today.year, today.month, i);
      r[i] == BuildMonth(ym.0, ym.1, booked, Format(today))
    ensures forall i :: 0 <= i < |r| ==>
      WellFormedGrid(r[i]) && (r[i].year, r[i].month) == MonthAfter(today.year, today.month, i)
  {
    var n := if monthsToShow > 0 then monthsToShow else 0;
    seq(n, i requires 0 <= i < n =>
      var ym := MonthAfter(today.year, today.month, i);
      BuildMonth(ym.0, ym.1, booked, Format(today)))
  }

  /** The first grid is the reference month and each further grid the month
      after its predecessor, the year carried past December. */
  lemma GridsAreConsecutiveMonths(today: Date, booked: set<string>, n: int, i: int)
    requires Valid(today) && today.year >= 100
    requires 0 <= i && i + 1 < n
    ensures var r := RenderCalendar(today, booked, n);
      && (r[0].year, r[0].month) == (today.year, today.month)
      && (r[i + 1].year, r[i + 1].month) == NextMonth((r[i].year, r[i].month))
  {
    var r := RenderCalendar(today, booked, n);
    MonthAfterZero(today.year, today.month);
    MonthAfterStep(today.year, today.month, i);
    assert (r[i].year, r[i].month) == MonthAfter(today.year, today.month, i);
    assert (r[i + 1].year, r[i + 1].month) == MonthAfter(today.year, today.month, i + 1);
  }

  /** The day cells of a grid are exactly the days of its month: day k exists in
      the month iff there is a cell numbered k, and the day after the last cell is
      the first day of the next month. */
  lemma CellsCoverMonth(g: MonthGrid, k: int)
    requires WellFormedGrid(g)
    ensures Valid(Date(g.year, g.month, k)) <==> 1 <= k <= |g.days|
    ensures Succ(Date(g.year, g.month, |g.days|)) == Date(NextMonth((g.year, g.month)).0, NextMonth((g.year, g.month)).1, 1)
  {
    SuccOfMonthEnd(g.year, g.month);
  }

  /** Consecutive grids line up: the next month starts on the weekday after
      this month's last day. */
  lemma LeadingEmptyChains(today: Date, booked: set<string>, n: int, i: int)
    requires Valid(today) && today.year >= 100
    requires 0 <= i && i + 1 < n
    ensures var r := RenderCalendar(today, booked, n);
      r[i + 1].leadingEmpty == (r[i].leadingEmpty + |r[i].days|) % 7
  {
    var r := RenderCalendar(today, booked, n);
    MonthAfterStep(today.year, today.month, i);
    assert (r[i + 1].year, r[i + 1].month) == NextMonth((r[i].year, r[i].month));
    WeekdayAfterMonth(r[i].year, r[i].month);
  }

  /** Exactly one cell of all the grids is marked today: the reference day's
      cell in the first grid. */
  lemma ExactlyOneToday(today: Date, booked: set<string>, n: int)
    requires Valid(today) && today.year >= 100 && n >= 1
    ensures var r := RenderCalendar(today, booked, n);
      && 0 <= today.day - 1 < |r[0].days| && r[0].days[today.day - 1].today
      && forall i, k :: 0 <= i < |r| && 0 <= k < |r[i].days| && r[i].days[k].today ==>
           i == 0 && k == today.day - 1
  {
    var r := RenderCalendar(today, booked, n);
    assert CellDate(r[0], today.day - 1) == today;
    forall i, k | 0 <= i < |r| && 0 <= k < |r[i].days| && r[i].days[k].today
      ensures i == 0 && k == today.day - 1
    {
      TodayCellIsToday(today, booked, n, i, k);
    }
  }

  lemma TodayCellIsToday(today: Date, booked: set<string>, n: int, i: int, k: int)
    requires Valid(today) && today.year >= 100
    requires var r := RenderCalendar(today, booked, n);
      0 <= i < |r| && 0 <= k < |r[i].days| && r[i].days[k].today
    ensures i == 0 && k == today.day - 1
  {
    var r := RenderCalendar(today, booked, n);
    FormatInjective(CellDate(r[i], k), today);
  }

  /** Months since year 0 of a day's month. */
  function MonthIndex(d: Date): int {
    d.year * 12 + d.month - 1
  }

  /** The day falls in one of the `n` displayed months. */
  predicate Displayed(today: Date, n: int, d: Date) {
    0 <= MonthIndex(d) - MonthIndex(today) < n
  }

  /** Booked days outside the displayed months change nothing. */
  lemma OnlyDisplayedBookingsMatter(today: Date, b1: set<string>, b2: set<string>, n: int)
    requires Valid(today) && today.year >= 100
    requires forall d :: Valid(d) && Displayed(today, n, d) ==> (Format(d) in b1 <==> Format(d) in b2)
    ensures RenderCalendar(today, b1, n) == RenderCalendar(today, b2, n)
  {
    var r1, r2 := RenderCalendar(today, b1, n), RenderCalendar(today, b2, n);
    forall i | 0 <= i < |r1|
      ensures r1[i] == r2[i]
    {
      forall k | 0 <= k < |r1[i].days|
        ensures r1[i].days[k] == r2[i].days[k]
      {
        assert Displayed(today, n, CellDate(r1[i], k));
      }
    }
  }

  // ---------------------------------------------------------------- initAvailability

  /** What the availability request produced: a transport failure, or a response
      with its `ok` flag and its body parsed as JSON (`None` when it is not JSON). */
  datatype FetchResult = NetworkError | Response(ok: bool, body: Option<Json>)

  /** What `initAvailability` leaves in the page. */
  datatype View =
    | Unchanged                 // no container, or no slug on it
    | NoDataPlaceholder         // "No availability loaded yet."
    | NotFoundPlaceholder       // "Availability not found."
    | CalendarView(months: seq<MonthGrid>)

  /** `Array.isArray(data.bookedDates) ? data.bookedDates : []`; `None` where
      reading the property throws (`data` is `null`). */
  function BookedArray(data: Json): (r: Option<seq<Json>>)
    ensures r.None? <==> data == JNull
    ensures r.Some? && r.value != [] ==>
      && data.JObj? && "bookedDates" in data.fields
      && data.fields["bookedDates"] == JArr(r.value)
  {
    match data
    case JNull => None
    case JObj(f) => Some(if "bookedDates" in f && f["bookedDates"].JArr? then f["bookedDates"].items else [])
    case _ => Some([])
  }

  /** The strings among the array's elements: only these can equal a cell's date
      in `bookedSet.has(ymd)`. */
  function StringsOf(items: seq<Json>): set<string> {
    set i | 0 <= i < |items| && items[i].JStr? :: items[i].s
  }

  /** The response carries a non-empty `bookedDates` array. */
  predicate HasBookings(data: Json) {
    data.JObj? && "bookedDates" in data.fields && data.fields["bookedDates"].JArr?
    && |data.fields["bookedDates"].items| > 0
  }

  /** `initAvailability`, with the page lookup, the fetch and the clock passed in. */
  function InitAvailability(hasContainer: bool, slug: string, fetched: FetchResult, today: Date): (v: View)
    requires Valid(today) && today.year >= 100
    ensures (!hasContainer || slug == "") <==> v == Unchanged
    ensures v.CalendarView? <==>
      hasContainer && slug != "" && fetched.Response? && fetched.ok && fetched.body.Some? && HasBookings(fetched.body.value)
    ensures v.CalendarView? ==> |v.months| == 6
    ensures v.CalendarView? ==>
      v.months == RenderCalendar(today, StringsOf(fetched.body.value.fields["bookedDates"].items), 6)
    ensures hasContainer && slug != "" && (fetched.NetworkError? || !fetched.ok || fetched.body.None?) ==>
      v == NotFoundPlaceholder
    ensures hasContainer && slug != "" && fetched == Response(true, Some(JNull)) ==> v == NotFoundPlaceholder
  {
    if !hasContainer || slug == "" then Unchanged
    else match fetched
      case NetworkError => NotFoundPlaceholder
      case Response(ok, body) =>
        if !ok then NotFoundPlaceholder
        else match body
          case None => NotFoundPlaceholder
          case Some(data) =>
            match BookedArray(data)
            case None => NotFoundPlaceholder
            case Some(items) =>
              if |items| == 0 then NoDataPlaceholder
              else CalendarView(RenderCalendar(today, StringsOf(items), 6))
  }

  /** On a calendar view, a day cell is booked exactly when the fetched
      `bookedDates` array holds that day's `YYYY-MM-DD` text as a string, and
      the grids are the six months starting with today's. */
  lemma CalendarShowsFetchedDates(slug: string, data: Json, today: Date, i: int, k: int)
    requires Valid(today) && today.year >= 100 && slug != "" && HasBookings(data)
    requires 0 <= i < 6
    ensures var v := InitAvailability(true, slug, Response(true, Some(data)), today);
      v.CalendarView? && |v.months| == 6
      && (v.months[i].year, v.months[i].month) == MonthAfter(today.year, today.month, i)
    ensures var g := InitAvailability(true, slug, Response(true, Some(data)), today).months[i];
      0 <= k < |g.days| ==>
        (g.days[k].booked <==>
          exists j :: 0 <= j < |data.fields["bookedDates"].items|
            && data.fields["bookedDates"].items[j] == JStr(Format(CellDate(g, k))))
  {
    var items := data.fields["bookedDates"].items;
    var g := InitAvailability(true, slug, Response(true, Some(data)), today).months[i];
    if 0 <= k < |g.days| {
      var ymd := Format(CellDate(g, k));
      if ymd in StringsOf(items) {
        var j :| 0 <= j < |items| && items[j].JStr? && items[j].s == ymd;
        assert items[j] == JStr(ymd);
      }
    }
  }

  /** A response whose `bookedDates` is missing, not an array, or empty shows the
      "no availability yet" placeholder. */
  lemma NoBookingsPlaceholder(slug: string, data: Json, today: Date)
    requires Valid(today) && today.year >= 100 && slug != ""
    requires data != JNull && !HasBookings(data)
    ensures InitAvailability(true, slug, Response(true, Some(data)), today) == NoDataPlaceholder
  {
  }
}

=== FILE: civil.dfy ===
/** Civil (proleptic Gregorian) calendar dates with no time of day or time zone.
    The source works with JS `Date` objects; on a host whose clock is at UTC these
    behave exactly as the date triples below. */
module Civil {

  datatype Date = Date(year: int, month: int, day: int)

  predicate IsLeap(y: int) {
    y % 4 == 0 && (y % 100 != 0 || y % 400 == 0)
  }

  function DaysInMonth(y: int, m: int): int {
    if m == 2 then (if IsLeap(y) then 29 else 28)
    else if m == 4 || m == 6 || m == 9 || m == 11 then 30
    else 31
  }

  function DaysInYear(y: int): int {
    if IsLeap(y) then 366 else 365
  }

  /** A proleptic Gregorian calendar day with a non-negative year. */
  predicate Valid(d: Date) {
    0 <= d.year && 1 <= d.month <= 12 && 1 <= d.day <= DaysInMonth(d.year, d.month)
  }

  /** Lexicographic order of the (year, month, day) triples. */
  predicate LexLess(a: Date, b: Date) {
    a.year < b.year
    || (a.year == b.year && a.month < b.month)
    || (a.year == b.year && a.month == b.month && a.day < b.day)
  }

  // ---------------------------------------------------------------- day numbers

  /** Days in the years 0 .. y-1 (year 0 is a leap year). */
  function DaysBeforeYear(y: nat): int {
    365 * y + (y + 3) / 4 - (y + 99) / 100 + (y + 399) / 400
  }

  const CumulativeDays: seq<int> := [0, 31, 59, 90, 120, 151, 181, 212, 243, 273, 304, 334]

  /** Days in the months 1 .. m-1 of year y. */
  function DaysBeforeMonth(y: int, m: int): int
    requires 1 <= m <= 12
  {
    CumulativeDays[m - 1] + (if m > 2 && IsLeap(y) then 1 else 0)
  }

  /** Number of days from 0000-01-01 to d: the time line JS `Date` comparisons use. */
  function DayNumber(d: Date): int
    requires Valid(d)
  {
    DaysBeforeYear(d.year) + DaysBeforeMonth(d.year, d.month) + d.day - 1
  }

  lemma DaysBeforeYearStep(y: nat)
    ensures DaysBeforeYear(y + 1) == DaysBeforeYear(y) + DaysInYear(y)
  {
    QuotientStep4(y);
    QuotientStep100(y);
    QuotientStep400(y);
    DivisibilityChain(y);
  }

  lemma DivisibilityChain(y: nat)
    ensures y % 400 == 0 ==> y % 100 == 0
    ensures y % 100 == 0 ==> y % 4 == 0
  {
    if y % 400 == 0 {
      assert y == 100 * (4 * (y / 400));
    }
    if y % 100 == 0 {
      assert y == 4 * (25 * (y / 100));
    }
  }

  lemma QuotientStep4(y: nat)
    ensures (y + 4) / 4 == (y + 3) / 4 + (if y % 4 == 0 then 1 else 0)
  {
  }

  lemma QuotientStep100(y: nat)
    ensures (y + 100) / 100 == (y + 99) / 100 + (if y % 100 == 0 then 1 else 0)
  {
  }

  lemma QuotientStep400(y: nat)
    ensures (y + 400) / 400 == (y + 399) / 400 + (if y % 400 == 0 then 1 else 0)
  {
  }

  lemma MonthEnd(y: int, m: int)
    requires 1 <= m <= 12
    ensures DaysBeforeMonth(y, m) + DaysInMonth(y, m)
      == if m < 12 then DaysBeforeMonth(y, m + 1) else DaysInYear(y)
  {
  }

  lemma {:induction false} DaysBeforeYearMonotone(a: nat, b: nat)
    requires a < b
    ensures DaysBeforeYear(a) + DaysInYear(a) <= DaysBeforeYear(b)
    decreases b - a
  {
    DaysBeforeYearStep(a);
    if a + 1 < b {
      DaysBeforeYearMonotone(a + 1, b);
    }
  }

  lemma DaysBeforeMonthMonotone(y: int, m1: int, m2: int)
    requires 1 <= m1 < m2 <= 12
    ensures DaysBeforeMonth(y, m1) + DaysInMonth(y, m1) <= DaysBeforeMonth(y, m2)
  {
  }

  /** Chronological order by day number is the lexicographic order of the triples. */
  lemma DayNumberOrder(a: Date, b: Date)
    requires Valid(a) && Valid(b)
    ensures DayNumber(a) < DayNumber(b) <==> LexLess(a, b)
  {
    if LexLess(a, b) {
      DayNumberLess(a, b);
    } else if LexLess(b, a) {
      DayNumberLess(b, a);
    } else {
      assert a == b;
    }
  }

  lemma DayNumberLess(a: Date, b: Date)
    requires Valid(a) && Valid(b) && LexLess(a, b)
    ensures DayNumber(a) < DayNumber(b)
  {
    if a.year < b.year {
      MonthEnd(a.year, a.month);
      if a.month < 12 {
        DaysBeforeMonthMonotone(a.year, a.month, 12);
        MonthEnd(a.year, 12);
      }
      DaysBeforeYearMonotone(a.year, b.year);
    } else if a.month < b.month {
      DaysBeforeMonthMonotone(a.year, a.month, b.month);
    }
  }

  /** Different days have different day numbers. */
  lemma DayNumberInjective(a: Date, b: Date)
    requires Valid(a) && Valid(b) && DayNumber(a) == DayNumber(b)
    ensures a == b
  {
    DayNumberOrder(a, b);
    DayNumberOrder(b, a);
  }

  // ---------------------------------------------------------------- succession

  /** The next calendar day: JS `d.setDate(d.getDate() + 1)`, which rolls over
      month and year ends. */
  function Succ(d: Date): (r: Date)
    requires Valid(d)
    ensures Valid(r)
    ensures DayNumber(r) == DayNumber(d) + 1
  {
    if d.day < DaysInMonth(d.year, d.month) then Date(d.year, d.month, d.day + 1)
    else if d.month < 12 then
      MonthEnd(d.year, d.month);
      Date(d.year, d.month + 1, 1)
    else
      MonthEnd(d.year, 12);
      DaysBeforeYearStep(d.year);
      Date(d.year + 1, 1, 1)
  }

  /** No valid day lies strictly between d and Succ(d). */
  lemma SuccIsNext(d: Date, x: Date)
    requires Valid(d) && Valid(x) && LexLess(d, x)
    ensures x == Succ(d) || LexLess(Succ(d), x)
  {
    DayNumberOrder(d, x);
    DayNumberOrder(Succ(d), x);
    if DayNumber(x) == DayNumber(Succ(d)) {
      DayNumberInjective(x, Succ(d));
    }
  }

  // ---------------------------------------------------------------- weekdays

  /** JS `getDay()`: 0 = Sunday .. 6 = Saturday (0000-01-01 was a Saturday). */
  function Weekday(d: Date): (w: int)
    requires Valid(d)
    ensures 0 <= w < 7
  {
    (DayNumber(d) + 6) % 7
  }

  lemma WeekdaySucc(d: Date)
    requires Valid(d)
    ensures Weekday(Succ(d)) == (Weekday(d) + 1) % 7
  {
    var n := DayNumber(d);
    assert DayNumber(Succ(d)) == n + 1;
    ModSevenStep(n + 6, n + 7);
  }

  lemma ModSevenStep(n: int, n': int)
    requires n' == n + 1
    ensures n' % 7 == (n % 7 + 1) % 7
  {
  }

  /** Anchor: 1970-01-01, the JS epoch, was a Thursday. */
  lemma WeekdayEpoch()
    ensures Weekday(Date(1970, 1, 1)) == 4
  {
  }

  // ---------------------------------------------------------------- months

  /** The calendar month `i` months after month (y, m), with the year carried
      past December: JS `new Date(y, m - 1 + i, 1)`. */
  function MonthAfter(y: int, m: int, i: nat): (r: (int, int))
    requires 0 <= y && 1 <= m <= 12
    ensures 0 <= r.0 && 1 <= r.1 <= 12
    ensures r.0 * 12 + r.1 == y * 12 + m + i
  {
    var total := y * 12 + (m - 1) + i;
    (total / 12, total % 12 + 1)
  }

  function NextMonth(ym: (int, int)): (int, int) {
    if ym.1 == 12 then (ym.0 + 1, 1) else (ym.0, ym.1 + 1)
  }

  lemma MonthAfterZero(y: int, m: int)
    requires 0 <= y && 1 <= m <= 12
    ensures MonthAfter(y, m, 0) == (y, m)
  {
  }

  lemma MonthAfterStep(y: int, m: int, i: nat)
    requires 0 <= y && 1 <= m <= 12
    ensures MonthAfter(y, m, i + 1) == NextMonth(MonthAfter(y, m, i))
  {
  }

  lemma MonthAfterDistinct(y: int, m: int, i: nat, j: nat)
    requires 0 <= y && 1 <= m <= 12 && i != j
    ensures MonthAfter(y, m, i) != MonthAfter(y, m, j)
  {
  }

  /** A month starts on the weekday after the previous month's last day. */
  lemma WeekdayAfterMonth(y: int, m: int)
    requires 0 <= y && 1 <= m <= 12
    ensures var n := NextMonth((y, m));
      Weekday(Date(n.0, n.1, 1)) == (Weekday(Date(y, m, 1)) + DaysInMonth(y, m)) % 7
  {
    var n := NextMonth((y, m));
    var first, last := Date(y, m, 1), Date(y, m, DaysInMonth(y, m));
    SuccOfMonthEnd(y, m);
    assert DayNumber(last) == DayNumber(first) + DaysInMonth(y, m) - 1;
    assert DayNumber(Date(n.0, n.1, 1)) == DayNumber(first) + DaysInMonth(y, m);
    ModSevenShift(DayNumber(first) + 6, DaysInMonth(y, m));
  }

  lemma ModSevenShift(a: int, d: int)
    ensures (a + d) % 7 == (a % 7 + d) % 7
  {
  }

  /** The day after the last day of a month is the first day of the next month. */
  lemma SuccOfMonthEnd(y: int, m: int)
    requires 0 <= y && 1 <= m <= 12
    ensures Valid(Date(y, m, DaysInMonth(y, m)))
    ensures Succ(Date(y, m, DaysInMonth(y, m))) == Date(NextMonth((y, m)).0, NextMonth((y, m)).1, 1)
  {
  }
}

=== FILE: ical.dfy ===
/** The iCalendar feed parser of the synchroniser: which days a feed books.

    A feed is read as its `VEVENT` blocks (section 3.6.1 of RFC 5545); of each block
    only the first `DTSTART` line (section 3.8.2.4) and the first `DTEND` line
    (section 3.8.2.2) matter, and of those only the DATE value (section 3.3.4) —
    a DATE-TIME suffix (section 3.3.5) is dropped. `DTEND` is exclusive; a missing
    one means a one-day event. */
module Ical {
  import opened Wrappers
  import opened Text
  import opened Civil
  import opened Ymd
  import opened SortedStrings

  const BeginEvent: string := "BEGIN:VEVENT"
  const EndEvent: string := "END:VEVENT"

  // ---------------------------------------------------------------- one line

  /** What may follow the eight date digits at the end of a line: nothing,
      `T` and six digits, or `T`, six digits and `Z`. */
  predicate IsTimeSuffix(t: string) {
    |t| == 0
    || ((|t| == 7 || |t| == 8) && t[0] == 'T' && AllDigits(t[1..7]) && (|t| == 8 ==> t[7] == 'Z'))
  }

  /** The eight digits captured by `/:(\d{8})(?:T\d{6}Z?)?$/`, if the line matches.
      The pattern is anchored at the end only, so the three possible matches are
      the suffixes of length 17, 16 and 9. */
  function DateDigits(line: string): (r: Option<string>)
    ensures r.Some? ==> |r.value| == 8 && AllDigits(r.value)
  {
    var n := |line|;
    if n >= 17 && line[n - 17] == ':' && AllDigits(line[n - 16..n - 8])
       && line[n - 8] == 'T' && AllDigits(line[n - 7..n - 1]) && line[n - 1] == 'Z'
    then Some(line[n - 16..n - 8])
    else if n >= 16 && line[n - 16] == ':' && AllDigits(line[n - 15..n - 7])
       && line[n - 7] == 'T' && AllDigits(line[n - 6..])
    then Some(line[n - 15..n - 7])
    else if n >= 9 && line[n - 9] == ':' && AllDigits(line[n - 8..])
    then Some(line[n - 8..])
    else None
  }

  /** `YYYYMMDD` regrouped as `YYYY-MM-DD`. */
  function Regroup(ds: string): (r: string)
    requires |ds| == 8 && AllDigits(ds)
    ensures IsYmdShape(r)
    ensures r[..4] + r[5..7] + r[8..] == ds
  {
    var r := ds[..4] + "-" + ds[4..6] + "-" + ds[6..];
    assert r[..4] == ds[..4] && r[5..7] == ds[4..6] && r[8..] == ds[6..];
    assert ds == ds[..4] + ds[4..6] + ds[6..];
    r
  }

  /** `parseDateFromLine`: the date of a `DTSTART`/`DTEND` line as `YYYY-MM-DD`,
      or `None` (JS `null`). */
  function ParseDateFromLine(line: string): (r: Option<string>)
    ensures r.Some? ==> IsYmdShape(r.value)
  {
    match DateDigits(line)
    case None => None
    case Some(ds) => Some(Regroup(ds))
  }

  /** Every line of the accepted form parses, to its eight digits regrouped;
      whatever precedes the colon is irrelevant. */
  lemma ParseDateOfShape(p: string, ds: string, t: string)
    requires |ds| == 8 && AllDigits(ds) && IsTimeSuffix(t)
    ensures ParseDateFromLine(p + ":" + ds + t) == Some(Regroup(ds))
  {
    var line := p + ":" + ds + t;
    var n := |line|;
    var k := |p|;
    assert line[k] == ':';
    assert line[k + 1..k + 9] == ds;
    assert line[k + 9..] == t;
    if |t| == 8 {
      assert line[n - 16..n - 8] == ds;
      assert line[n - 7..n - 1] == t[1..7];
    } else if |t| == 7 {
      assert line[n - 8] == ds[7];
      assert line[n - 15..n - 7] == ds;
      assert line[n - 6..] == t[1..7];
    } else {
      assert line[n - 8] == ds[0];
      assert line[n - 7] == ds[1];
      assert line[n - 8..] == ds;
    }
  }

  /** Conversely, a line that parses has the accepted form: a colon, eight digits,
      then a time suffix up to the end of the line. */
  lemma ParseDateHasShape(line: string)
    requires ParseDateFromLine(line).Some?
    ensures exists k :: (0 <= k && k + 9 <= |line| && line[k] == ':'
                          && AllDigits(line[k + 1..k + 9]) && IsTimeSuffix(line[k + 9..])
                          && ParseDateFromLine(line).value == Regroup(line[k + 1..k + 9]))
  {
    var n := |line|;
    if n >= 17 && line[n - 17] == ':' && AllDigits(line[n - 16..n - 8])
       && line[n - 8] == 'T' && AllDigits(line[n - 7..n - 1]) && line[n - 1] == 'Z' {
      var k := n - 17;
      assert line[k + 9..][1..7] == line[n - 7..n - 1];
      assert IsTimeSuffix(line[k + 9..]);
    } else if n >= 16 && line[n - 16] == ':' && AllDigits(line[n - 15..n - 7])
       && line[n - 7] == 'T' && AllDigits(line[n - 6..]) {
      var k := n - 16;
      assert line[k + 9..][1..7] == line[n - 6..];
      assert IsTimeSuffix(line[k + 9..]);
    } else {
      var k := n - 9;
      assert DateDigits(line) == Some(line[n - 8..]);
      assert line[k + 1..k + 9] == line[n - 8..];
      assert IsTimeSuffix(line[k + 9..]);
    }
  }

  /** A DATE-TIME value yields the same day as the bare DATE. */
  lemma TimeOfDayDropped(p: string, ds: string, t: string)
    requires |ds| == 8 && AllDigits(ds) && IsTimeSuffix(t)
    ensures ParseDateFromLine(p + ":" + ds + t) == ParseDateFromLine(p + ":" + ds)
  {
    ParseDateOfShape(p, ds, t);
    ParseDateOfShape(p, ds, "");
    assert p + ":" + ds + "" == p + ":" + ds;
  }

  // ---------------------------------------------------------------- day runs

  /** The run of consecutive days from `s` up to, not including, `e`: the loop of
      `enumerateDates` (`d < end`, `d.setDate(d.getDate() + 1)`). */
  function DaysFrom(s: Date, e: Date): (r: seq<Date>)
    requires Valid(s) && Valid(e)
    ensures |r| == if DayNumber(s) < DayNumber(e) then DayNumber(e) - DayNumber(s) else 0
    ensures forall i :: 0 <= i < |r| ==> Valid(r[i]) && DayNumber(r[i]) == DayNumber(s) + i
    ensures |r| > 0 ==> r[0] == s
    ensures forall i :: 0 < i < |r| ==> r[i] == Succ(r[i - 1])
    decreases DayNumber(e) - DayNumber(s)
  {
    if DayNumber(s) < DayNumber(e) then [s] + DaysFrom(Succ(s), e) else []
  }

  /** A day is in the run exactly when it lies in `[s, e)`. */
  lemma DaysFromMembers(s: Date, e: Date, d: Date)
    requires Valid(s) && Valid(e) && Valid(d)
    ensures d in DaysFrom(s, e) <==> DayNumber(s) <= DayNumber(d) < DayNumber(e)
  {
    var r := DaysFrom(s, e);
    if DayNumber(s) <= DayNumber(d) < DayNumber(e) {
      var k := DayNumber(d) - DayNumber(s);
      DayNumberInjective(r[k], d);
    }
  }

  function FormatAll(ds: seq<Date>): (r: seq<string>)
    requires forall i :: 0 <= i < |ds| ==> Valid(ds[i])
    ensures |r| == |ds| && forall i :: 0 <= i < |ds| ==> r[i] == Format(ds[i])
  {
    seq(|ds|, i requires 0 <= i < |ds| => Format(ds[i]))
  }

  /** `enumerateDates(startYmd, endYmdExclusive)`. An unreadable bound is an Invalid
      Date, and a comparison with one is false, so the result is then empty. */
  function EnumerateDates(startYmd: string, endYmdExclusive: string): (r: seq<string>)
    ensures r != [] ==>
      && ParseYmd(startYmd).Some? && ParseYmd(endYmdExclusive).Some?
      && DayNumber(ParseYmd(startYmd).value) < DayNumber(ParseYmd(endYmdExclusive).value)
  {
    match (ParseYmd(startYmd), ParseYmd(endYmdExclusive))
    case (Some(s), Some(e)) => FormatAll(DaysFrom(s, e))
    case _ => []
  }

  lemma FormatAllMembers(ds: seq<Date>, d: Date)
    requires forall i :: 0 <= i < |ds| ==> Valid(ds[i])
    requires Valid(d)
    ensures Format(d) in FormatAll(ds) <==> d in ds
  {
    var out := FormatAll(ds);
    if Format(d) in out {
      var i :| 0 <= i < |out| && out[i] == Format(d);
      FormatInjective(ds[i], d);
    }
    if d in ds {
      var i :| 0 <= i < |ds| && ds[i] == d;
      assert out[i] == Format(d);
    }
  }

  /** `enumerateDates(S, E)` has one entry per day from S up to E, none when E <= S. */
  lemma EnumerateDatesLength(startYmd: string, endYmd: string)
    requires ParseYmd(startYmd).Some? && ParseYmd(endYmd).Some?
    ensures var s, e := ParseYmd(startYmd).value, ParseYmd(endYmd).value;
      |EnumerateDates(startYmd, endYmd)| == if DayNumber(s) < DayNumber(e) then DayNumber(e) - DayNumber(s) else 0
  {
  }

  /** A day's text is listed by `enumerateDates(S, E)` exactly when the day lies in
      `[S, E)`; in particular E itself is never listed. */
  lemma EnumerateDatesMembers(startYmd: string, endYmd: string, d: Date)
    requires ParseYmd(startYmd).Some? && ParseYmd(endYmd).Some? && Valid(d)
    ensures var s, e := ParseYmd(startYmd).value, ParseYmd(endYmd).value;
      Format(d) in EnumerateDates(startYmd, endYmd) <==> DayNumber(s) <= DayNumber(d) < DayNumber(e)
  {
    var s, e := ParseYmd(startYmd).value, ParseYmd(endYmd).value;
    DaysFromMembers(s, e, d);
    FormatAllMembers(DaysFrom(s, e), d);
  }

  /** With a four-digit start year, `enumerateDates` lists its days in strictly
      ascending string order (the order `sort` gives them). */
  lemma EnumerateDatesAscending(startYmd: string, endYmd: string)
    requires ParseYmd(startYmd).Some? && ParseYmd(endYmd).Some?
    requires 1000 <= ParseYmd(startYmd).value.year
    ensures StrictlySorted(EnumerateDates(startYmd, endYmd))
  {
    var s, e := ParseYmd(startYmd).value, ParseYmd(endYmd).value;
    var r := DaysFrom(s, e);
    var out := FormatAll(r);
    forall i, j | 0 <= i < j < |out|
      ensures StrLess(out[i], out[j])
    {
      DayNumberOrder(r[i], r[j]);
      DayNumberOrder(r[j], e);
      if i > 0 {
        DayNumberOrder(s, r[i]);
      }
      FormatOrder(r[i], r[j]);
    }
  }

  /** Every entry of `enumerateDates` is the text of a day. */
  lemma EnumerateDatesEntries(startYmd: string, endYmd: string, x: string)
    requires x in EnumerateDates(startYmd, endYmd)
    ensures exists d :: Valid(d) && x == Format(d)
  {
    var s, e := ParseYmd(startYmd).value, ParseYmd(endYmd).value;
    var r := DaysFrom(s, e);
    var out := FormatAll(r);
    var i :| 0 <= i < |out| && out[i] == x;
    assert Valid(r[i]) && x == Format(r[i]);
  }

  // ---------------------------------------------------------------- one event block

  /** The part of a block before its first `END:VEVENT`. */
  function EventBody(block: string): string {
    match IndexOf(block, EndEvent)
    case Some(i) => block[..i]
    case None => block
  }

  function StartLine(block: string): string {
    FirstWithPrefix(Lines(EventBody(block)), "DTSTART")
  }

  function EndLine(block: string): string {
    FirstWithPrefix(Lines(EventBody(block)), "DTEND")
  }

  /** The day after a `YYYY-MM-DD` day, formatted again (sync-ical.js 75-77);
      `new Date` of an unreadable day gives the text of `NaN`s. */
  function NextDayYmd(ymd: string): (r: string)
    ensures ParseYmd(ymd).None? ==> ParseYmd(r).None?
  {
    match ParseYmd(ymd)
    case Some(d) => Format(Succ(d))
    case None => "NaN-NaN-NaN"
  }

  /** The start and exclusive end a block's event spans, as the loop of
      `parseIcsToBookedDates` derives them, or `None` for a skipped block. */
  function EventSpan(block: string): (r: Option<(string, string)>)
    ensures r.None? <==> ParseDateFromLine(StartLine(block)).None?
    ensures r.Some? ==> IsYmdShape(r.value.0)
  {
    var start := ParseDateFromLine(StartLine(block));
    var endLine := EndLine(block);
    var endExclusive := if endLine != "" then ParseDateFromLine(endLine) else None;
    if start.None? then None
    else if endExclusive.Some? then Some((start.value, endExclusive.value))
    else Some((start.value, NextDayYmd(start.value)))
  }

  /** The days one block books. */
  function BlockDates(block: string): seq<string> {
    match EventSpan(block)
    case None => []
    case Some((s, e)) => EnumerateDates(s, e)
  }

  /** A block whose first `DTSTART` line does not parse books nothing. */
  lemma NoStartNoDates(block: string)
    requires ParseDateFromLine(StartLine(block)).None?
    ensures BlockDates(block) == []
  {
  }

  /** A block with a start day but no usable `DTEND` books exactly its start day. */
  lemma MissingEndBooksStartDay(block: string)
    requires ParseDateFromLine(StartLine(block)).Some?
    requires ParseDateFromLine(EndLine(block)).None?
    requires var s := ParseYmd(ParseDateFromLine(StartLine(block)).value);
      s.Some? && 1000 <= s.value.year && Succ(s.value).year <= 9999
    ensures BlockDates(block) == [ParseDateFromLine(StartLine(block)).value]
  {
    var sy := ParseDateFromLine(StartLine(block)).value;
    var s := ParseYmd(sy).value;
    assert EventSpan(block) == Some((sy, Format(Succ(s))));
    EnumerateOneDay(sy);
  }

  /** From a readable day to the formatted day after it is a run of one day. */
  lemma EnumerateOneDay(sy: string)
    requires var s := ParseYmd(sy); s.Some? && 1000 <= s.value.year && Succ(s.value).year <= 9999
    ensures EnumerateDates(sy, Format(Succ(ParseYmd(sy).value))) == [sy]
  {
    var s := ParseYmd(sy).value;
    var e := Succ(s);
    ParseFormat(e);
    var r := DaysFrom(s, e);
    assert |r| == 1 && r[0] == s;
    StartHasNoLeadingZero(sy);
    FormatParse(sy);
  }

  lemma StartHasNoLeadingZero(sy: string)
    requires var s := ParseYmd(sy); s.Some? && 1000 <= s.value.year
    ensures sy[0] != '0'
  {
    FourDigitsValue(sy[..4]);
    assert sy[..4][0] == sy[0];
  }

  /** A block with start day S and a `DTEND` day E books exactly the days of
      `[S, E)`: the day d is booked iff S <= d < E. */
  lemma StartAndEndBookRange(block: string, d: Date)
    requires ParseDateFromLine(StartLine(block)).Some?
    requires ParseDateFromLine(EndLine(block)).Some?
    requires ParseYmd(ParseDateFromLine(StartLine(block)).value).Some?
    requires ParseYmd(ParseDateFromLine(EndLine(block)).value).Some?
    requires Valid(d)
    ensures var s := ParseYmd(ParseDateFromLine(StartLine(block)).value).value;
      var e := ParseYmd(ParseDateFromLine(EndLine(block)).value).value;
      Format(d) in BlockDates(block) <==> DayNumber(s) <= DayNumber(d) < DayNumber(e)
  {
    assert EndLine(block) != "";
    EnumerateDatesMembers(ParseDateFromLine(StartLine(block)).value, ParseDateFromLine(EndLine(block)).value, d);
  }

  /** Whatever a block books is the text of a day. */
  lemma BlockDatesAreDays(block: string, x: string)
    requires x in BlockDates(block)
    ensures exists d :: Valid(d) && x == Format(d)
  {
    var (s, e) := EventSpan(block).value;
    EnumerateDatesEntries(s, e, x);
  }

  /** Text after the first `END:VEVENT` of a block is ignored. */
  lemma TailIgnored(body: string, tail: string)
    requires !Contains(body, EndEvent)
    ensures BlockDates(body + EndEvent + tail) == BlockDates(body)
  {
    var block := body + EndEvent + tail;
    EventBodyCut(body, tail);
    assert StartLine(block) == StartLine(body);
    assert EndLine(block) == EndLine(body);
    assert EventSpan(block) == EventSpan(body);
  }

  lemma EventBodyCut(body: string, tail: string)
    requires !Contains(body, EndEvent)
    ensures EventBody(body + EndEvent + tail) == body == EventBody(body)
  {
    MarkersUnbordered();
    FirstOccurrenceAfter(body, EndEvent, tail);
    assert (body + EndEvent + tail)[..|body|] == body;
  }

  lemma MarkersUnbordered()
    ensures Unbordered(BeginEvent) && Unbordered(EndEvent)
  {
    forall j | 0 < j < |BeginEvent|
      ensures BeginEvent[j..] != BeginEvent[..|BeginEvent| - j]
    {
      assert BeginEvent[j..][0] != BeginEvent[..|BeginEvent| - j][0];
    }
    forall j | 0 < j < |EndEvent|
      ensures EndEvent[j..] != EndEvent[..|EndEvent| - j]
    {
      if j == 5 {
        assert EndEvent[j..][1] != EndEvent[..|EndEvent| - j][1];
      } else if j == 7 {
        assert EndEvent[j..][2] != EndEvent[..|EndEvent| - j][2];
      } else {
        assert EndEvent[j..][0] != EndEvent[..|EndEvent| - j][0];
      }
    }
  }

  // ---------------------------------------------------------------- whole feed

  /** The event blocks: `ics.split(/BEGIN:VEVENT/).slice(1)`. */
  function Blocks(ics: string): seq<string> {
    SplitOn(ics, BeginEvent)[1..]
  }

  /** The days each block books. */
  function BlockDateLists(blocks: seq<string>): (r: seq<seq<string>>)
    ensures |r| == |blocks| && forall i :: 0 <= i < |blocks| ==> r[i] == BlockDates(blocks[i])
  {
    seq(|blocks|, i requires 0 <= i < |blocks| => BlockDates(blocks[i]))
  }

  /** The union of the days the blocks book, duplicate-free and in ascending
      string order (`Array.from(booked).sort()`). */
  function BookedFrom(blocks: seq<string>): (r: seq<string>)
    ensures StrictlySorted(r)
    ensures forall x :: x in r <==> exists i :: 0 <= i < |blocks| && x in BlockDates(blocks[i])
  {
    var lists := BlockDateLists(blocks);
    var r := UnionSorted(lists);
    assert forall i :: 0 <= i < |blocks| ==> lists[i] == BlockDates(blocks[i]);
    r
  }

  /** `parseIcsToBookedDates`: the days booked by any event block of the feed,
      duplicate-free and in ascending order. */
  function ParseIcsToBookedDates(ics: string): (r: seq<string>)
    ensures StrictlySorted(r)
    ensures forall x :: x in r <==> exists i :: 0 <= i < |Blocks(ics)| && x in BlockDates(Blocks(ics)[i])
  {
    BookedFrom(Blocks(ics))
  }

  /** The booked days depend only on which blocks occur, not on their order or
      repetition. */
  lemma BookedFromSameBlocks(bs1: seq<string>, bs2: seq<string>)
    requires forall b :: b in bs1 <==> b in bs2
    ensures BookedFrom(bs1) == BookedFrom(bs2)
  {
    var r1, r2 := BookedFrom(bs1), BookedFrom(bs2);
    forall x
      ensures x in r1 <==> x in r2
    {
      if x in r1 {
        var i :| 0 <= i < |bs1| && x in BlockDates(bs1[i]);
        assert bs1[i] in bs2;
        var j :| 0 <= j < |bs2| && bs2[j] == bs1[i];
      }
      if x in r2 {
        var i :| 0 <= i < |bs2| && x in BlockDates(bs2[i]);
        assert bs2[i] in bs1;
        var j :| 0 <= j < |bs1| && bs1[j] == bs2[i];
      }
    }
    SortedUnique(r1, r2);
  }

  /** A feed built from event blocks, each introduced by `BEGIN:VEVENT`. */
  function Feed(bs: seq<string>): string {
    if |bs| == 0 then "" else BeginEvent + (bs[0] + Feed(bs[1..]))
  }

  /** No block contains the `BEGIN:VEVENT` marker. */
  predicate MarkerFree(bs: seq<string>) {
    forall b :: b in bs ==> !Contains(b, BeginEvent)
  }

  lemma {:induction false} SplitFeed(b0: string, bs: seq<string>)
    requires !Contains(b0, BeginEvent) && MarkerFree(bs)
    ensures SplitOn(b0 + Feed(bs), BeginEvent) == [b0] + bs
    decreases |bs|
  {
    MarkersUnbordered();
    if |bs| == 0 {
      assert b0 + Feed(bs) == b0;
    } else {
      var rest := bs[0] + Feed(bs[1..]);
      assert b0 + Feed(bs) == b0 + BeginEvent + rest;
      FirstOccurrenceAfter(b0, BeginEvent, rest);
      assert (b0 + BeginEvent + rest)[|b0| + |BeginEvent|..] == rest;
      assert (b0 + BeginEvent + rest)[..|b0|] == b0;
      assert bs[0] in bs;
      assert forall b :: b in bs[1..] ==> b in bs;
      SplitFeed(bs[0], bs[1..]);
      HeadTail(bs);
    }
  }

  /** Splitting a feed built from blocks gives the blocks back. */
  lemma BlocksOfFeed(bs: seq<string>)
    requires MarkerFree(bs)
    ensures Blocks(Feed(bs)) == bs
  {
    if |bs| == 0 {
      assert IndexOf("", BeginEvent).None?;
    } else {
      FeedSplits(bs);
      assert ([""] + bs)[1..] == bs;
    }
  }

  lemma FeedSplits(bs: seq<string>)
    requires |bs| > 0 && MarkerFree(bs)
    ensures SplitOn(Feed(bs), BeginEvent) == [""] + bs
  {
    var r := bs[0] + Feed(bs[1..]);
    assert Feed(bs) == BeginEvent + r;
    SplitAtLeadingMarker(r);
    assert bs[0] in bs;
    assert forall b :: b in bs[1..] ==> b in bs;
    SplitFeed(bs[0], bs[1..]);
    HeadTail(bs);
  }

  /** A non-empty list is its head followed by its tail; stated apart, since
      proving it inside `FeedSplits` and `SplitFeed` makes them costly. */
  lemma HeadTail(s: seq<string>)
    requires |s| > 0
    ensures [s[0]] + s[1..] == s
  {
  }

  lemma SplitAtLeadingMarker(rest: string)
    ensures SplitOn(BeginEvent + rest, BeginEvent) == [""] + SplitOn(rest, BeginEvent)
  {
    var f := BeginEvent + rest;
    assert OccursAt(f, BeginEvent, 0);
    assert f[|BeginEvent|..] == rest;
  }

  /** Reordering or repeating the events of a feed leaves its booked days unchanged. */
  lemma ReorderedFeedSameDates(bs1: seq<string>, bs2: seq<string>)
    requires MarkerFree(bs1) && MarkerFree(bs2)
    requires forall b :: b in bs1 <==> b in bs2
    ensures ParseIcsToBookedDates(Feed(bs1)) == ParseIcsToBookedDates(Feed(bs2))
  {
    BlocksOfFeed(bs1);
    BlocksOfFeed(bs2);
    BookedFromSameBlocks(bs1, bs2);
  }

  /** Text before the first `BEGIN:VEVENT` is ignored. */
  lemma PreambleIgnored(junk: string, rest: string)
    requires !Contains(junk, BeginEvent)
    ensures ParseIcsToBookedDates(junk + BeginEvent + rest) == ParseIcsToBookedDates(BeginEvent + rest)
  {
    MarkersUnbordered();
    FirstOccurrenceAfter(junk, BeginEvent, rest);
    assert !Contains("", BeginEvent);
    FirstOccurrenceAfter("", BeginEvent, rest);
    assert "" + BeginEvent + rest == BeginEvent + rest;
    assert (junk + BeginEvent + rest)[|junk| + |BeginEvent|..] == rest;
    assert (BeginEvent + rest)[|BeginEvent|..] == rest;
  }
}

=== FILE: json.dfy ===
/** Parsed JSON values, as `JSON.parse` returns them. */
module Json {

  datatype Json =
    | JNull
    | JBool(b: bool)
    | JNum(n: real)
    | JStr(s: string)
    | JArr(items: seq<Json>)
    | JObj(fields: map<string, Json>)

  /** JS truthiness of a parsed JSON value: `null`, `false`, `0` and `""` are falsy. */
  predicate Truthy(v: Json) {
    match v
    case JNull => false
    case JBool(b) => b
    case JNum(n) => n != 0.0
    case JStr(s) => s != ""
    case _ => true
  }
}

=== FILE: sorted.dfy ===
/** Duplicate-free, ascending sequences of strings: what `Array.from(new Set(xs)).sort()`
    produces. */
module SortedStrings {
  import opened Text

  predicate StrictlySorted(s: seq<string>) {
    forall i, j :: 0 <= i < j < |s| ==> StrLess(s[i], s[j])
  }

  /** Add `x` to a strictly sorted sequence, keeping it strictly sorted: a set
      insertion followed by the sort. */
  function Insert(s: seq<string>, x: string): (r: seq<string>)
    requires StrictlySorted(s)
    ensures StrictlySorted(r)
    ensures forall y :: y in r <==> y in s || y == x
  {
    if |s| == 0 then [x]
    else if x == s[0] then s
    else if StrLess(x, s[0]) then
      forall j | 0 < j < |s| ensures StrLess(x, s[j]) {
        StrLessTransitive(x, s[0], s[j]);
      }
      [x] + s
    else
      StrLessTotal(x, s[0]);
      var tail := Insert(s[1..], x);
      assert forall y :: y in tail ==> StrLess(s[0], y);
      [s[0]] + tail
  }

  /** Insert every element of `xs`. */
  function InsertAll(s: seq<string>, xs: seq<string>): (r: seq<string>)
    requires StrictlySorted(s)
    ensures StrictlySorted(r)
    ensures forall y :: y in r <==> y in s || y in xs
    decreases |xs|
  {
    if |xs| == 0 then s else InsertAll(Insert(s, xs[0]), xs[1..])
  }

  /** The union of several lists, duplicate-free and sorted. */
  function UnionSorted(lists: seq<seq<string>>): (r: seq<string>)
    ensures StrictlySorted(r)
    ensures forall x :: x in r <==> exists i :: 0 <= i < |lists| && x in lists[i]
  {
    if |lists| == 0 then []
    else
      var init := lists[..|lists| - 1];
      var r := InsertAll(UnionSorted(init), lists[|lists| - 1]);
      assert forall i :: 0 <= i < |init| ==> init[i] == lists[i];
      r
  }

  /** A strictly sorted sequence is determined by its elements: sorting a set has
      one answer. */
  lemma {:induction false} SortedUnique(a: seq<string>, b: seq<string>)
    requires StrictlySorted(a) && StrictlySorted(b)
    requires forall y :: y in a <==> y in b
    ensures a == b
    decreases |a|
  {
    assert |a| > 0 ==> a[0] in a;
    assert |b| > 0 ==> b[0] in b;
    if |a| > 0 && |b| > 0 {
      if a[0] != b[0] {
        assert b[0] in a && a[0] in b;
        var i :| 0 <= i < |a| && a[i] == b[0];
        var j :| 0 <= j < |b| && b[j] == a[0];
        assert i > 0 && j > 0;
        StrLessAsymmetric(a[0], b[0]);
        assert false;
      }
      forall y
        ensures y in a[1..] <==> y in b[1..]
      {
        if y in a[1..] {
          var k :| 0 <= k < |a| - 1 && a[1..][k] == y;
          assert StrLess(a[0], a[k + 1]);
          StrLessIrreflexive(a[0]);
          assert y in b && y != b[0];
          assert b == [b[0]] + b[1..];
        }
        if y in b[1..] {
          var k :| 0 <= k < |b| - 1 && b[1..][k] == y;
          assert StrLess(b[0], b[k + 1]);
          StrLessIrreflexive(b[0]);
          assert y in a && y != a[0];
          assert a == [a[0]] + a[1..];
        }
      }
      SortedUnique(a[1..], b[1..]);
    }
  }
}

=== FILE: text.dfy ===
/** String helpers shared by the feed parser, the renderer and the site builder:
    decimal digits, substring search, splitting, lexicographic order. */
module Text {
  import opened Wrappers

  // ---------------------------------------------------------------- digits

  predicate IsDigit(c: char) {
    '0' <= c <= '9'
  }

  predicate AllDigits(s: string) {
    forall i :: 0 <= i < |s| ==> IsDigit(s[i])
  }

  function DigitChar(n: nat): (c: char)
    requires n < 10
    ensures IsDigit(c)
  {
    (48 + n) as char
  }

  function DigitValue(c: char): (n: nat)
    requires IsDigit(c)
    ensures n < 10 && DigitChar(n) == c
  {
    c as int - 48
  }

  /** The number a string of decimal digits denotes (leading zeros allowed). */
  function DigitsValue(s: string): nat
    requires AllDigits(s)
  {
    if |s| == 0 then 0 else DigitsValue(s[..|s| - 1]) * 10 + DigitValue(s[|s| - 1])
  }

  /** JS `String(n)` for a non-negative integer: shortest decimal form, no leading zero. */
  function NatToString(n: nat): (r: string)
    ensures |r| >= 1 && AllDigits(r)
    ensures DigitsValue(r) == n
    ensures r[0] == '0' ==> n == 0
    ensures n < 10 <==> |r| == 1
  {
    if n < 10 then [DigitChar(n)]
    else
      var p := NatToString(n / 10);
      assert (p + [DigitChar(n % 10)])[..|p|] == p;
      p + [DigitChar(n % 10)]
  }

  lemma NatToStringInjective(a: nat, b: nat)
    requires NatToString(a) == NatToString(b)
    ensures a == b
  {
    assert a == DigitsValue(NatToString(a));
  }

  lemma {:induction false} DigitsValueLowerBound(s: string)
    requires |s| >= 1 && AllDigits(s)
    ensures DigitsValue(s) >= DigitValue(s[0])
    decreases |s|
  {
    if |s| > 1 {
      var p := s[..|s| - 1];
      assert p[0] == s[0];
      DigitsValueLowerBound(p);
    }
  }

  /** A digit string without a superfluous leading zero is `String` of its value. */
  lemma {:induction false} NatToStringOfDigits(s: string)
    requires |s| >= 1 && AllDigits(s) && (s[0] != '0' || |s| == 1)
    ensures NatToString(DigitsValue(s)) == s
    decreases |s|
  {
    if |s| > 1 {
      var p := s[..|s| - 1];
      assert p[0] == s[0];
      DigitsValueLowerBound(p);
      NatToStringOfDigits(p);
      var n := DigitsValue(s);
      assert n / 10 == DigitsValue(p) && n % 10 == DigitValue(s[|s| - 1]);
      assert s == p + [s[|s| - 1]];
    }
  }

  /** JS `s.padStart(2, '0')`. */
  function PadStart2(s: string): string {
    if |s| == 0 then "00" else if |s| == 1 then "0" + s else s
  }

  /** Two-digit zero-padded form of a number below 100, as `String(n).padStart(2, '0')`. */
  function Pad2(n: nat): (r: string)
    requires n < 100
    ensures |r| == 2 && AllDigits(r) && DigitsValue(r) == n
  {
    var r := PadStart2(NatToString(n));
    assert DigitsValue(r) == DigitsValue(r[..1]) * 10 + DigitValue(r[1]);
    r
  }

  lemma Pad2Injective(a: nat, b: nat)
    requires a < 100 && b < 100 && Pad2(a) == Pad2(b)
    ensures a == b
  {
  }

  /** A two-digit string is the padded form of its value. */
  lemma Pad2OfDigits(s: string)
    requires |s| == 2 && AllDigits(s)
    ensures DigitsValue(s) < 100 && Pad2(DigitsValue(s)) == s
  {
    assert DigitsValue(s) == DigitValue(s[0]) * 10 + DigitValue(s[1]) by {
      assert s[..1][..0] == [];
      assert s[..|s| - 1] == s[..1];
      assert DigitsValue(s[..1]) == DigitValue(s[0]);
    }
    if s[0] == '0' {
      assert NatToString(DigitsValue(s)) == [s[1]];
    } else {
      NatToStringOfDigits(s);
    }
  }

  // ---------------------------------------------------------------- search

  predicate StartsWith(s: string, prefix: string) {
    |prefix| <= |s| && s[..|prefix|] == prefix
  }

  predicate EndsWith(s: string, suffix: string) {
    |suffix| <= |s| && s[|s| - |suffix|..] == suffix
  }

  /** `pat` occurs in `s` starting at index `i`. */
  predicate OccursAt(s: string, pat: string, i: int) {
    0 <= i && i + |pat| <= |s| && s[i..i + |pat|] == pat
  }

  predicate Contains(s: string, pat: string) {
    exists i :: 0 <= i <= |s| && OccursAt(s, pat, i)
  }

  /** JS `s.indexOf(pat)`: the first occurrence, `None` for -1. */
  function IndexOf(s: string, pat: string): (r: Option<nat>)
    ensures r.Some? ==> OccursAt(s, pat, r.value)
    ensures r.Some? ==> forall k :: 0 <= k < r.value ==> !OccursAt(s, pat, k)
    ensures r.None? <==> !Contains(s, pat)
  {
    IndexFrom(s, pat, 0)
  }

  function IndexFrom(s: string, pat: string, from: nat): (r: Option<nat>)
    requires from <= |s| + 1
    requires forall k :: 0 <= k < from ==> !OccursAt(s, pat, k)
    ensures r.Some? ==> from <= r.value && OccursAt(s, pat, r.value)
    ensures r.Some? ==> forall k :: 0 <= k < r.value ==> !OccursAt(s, pat, k)
    ensures r.None? <==> !Contains(s, pat)
    decreases |s| + 1 - from
  {
    if from + |pat| > |s| then
      assert forall k :: from <= k ==> !OccursAt(s, pat, k);
      None
    else if s[from..from + |pat|] == pat then
      assert OccursAt(s, pat, from);
      Some(from)
    else IndexFrom(s, pat, from + 1)
  }

  /** `pat` overlaps no shifted copy of itself: no proper suffix of it is also a prefix. */
  predicate Unbordered(pat: string) {
    forall j :: 0 < j < |pat| ==> pat[j..] != pat[..|pat| - j]
  }

  /** For an unbordered marker not occurring in `a`, the first occurrence in
      `a + pat + b` is the one right after `a`. */
  lemma FirstOccurrenceAfter(a: string, pat: string, b: string)
    requires |pat| > 0 && Unbordered(pat) && !Contains(a, pat)
    ensures IndexOf(a + pat + b, pat) == Some(|a|)
  {
    var s := a + pat + b;
    assert s[|a|..|a| + |pat|] == pat;
    assert OccursAt(s, pat, |a|);
    forall k | 0 <= k < |a|
      ensures !OccursAt(s, pat, k)
    {
      if k + |pat| <= |a| {
        assert s[k..k + |pat|] == a[k..k + |pat|];
        assert !OccursAt(a, pat, k);
      } else {
        var j := |a| - k;
        assert pat[j..] != pat[..|pat| - j];
        var t :| 0 <= t < |pat| - j && pat[j..][t] != pat[..|pat| - j][t];
        assert s[k..k + |pat|][j + t] == s[|a| + t] == pat[t];
      }
    }
  }

  // ---------------------------------------------------------------- split

  /** Concatenation of `parts` with `sep` between neighbours (JS `parts.join(sep)`). */
  function JoinWith(parts: seq<string>, sep: string): string
    requires |parts| >= 1
  {
    if |parts| == 1 then parts[0] else parts[0] + sep + JoinWith(parts[1..], sep)
  }

  /** JS `s.split(sep)` for a non-empty literal separator. */
  function SplitOn(s: string, sep: string): (r: seq<string>)
    requires |sep| > 0
    ensures |r| >= 1
    decreases |s|
  {
    match IndexOf(s, sep)
    case None => [s]
    case Some(i) => [s[..i]] + SplitOn(s[i + |sep|..], sep)
  }

  lemma SliceOfPrefix<T>(s: seq<T>, n: nat, a: nat, b: nat)
    requires a <= b <= n <= |s|
    ensures s[..n][a..b] == s[a..b]
  {
  }

  /** The text before the first occurrence of `pat` does not contain it. */
  lemma BeforeFirstOccurrence(s: string, pat: string, i: nat)
    requires |pat| > 0 && IndexOf(s, pat) == Some(i)
    ensures !Contains(s[..i], pat)
  {
    forall k | 0 <= k <= i
      ensures !OccursAt(s[..i], pat, k)
    {
      if k + |pat| <= i {
        SliceOfPrefix(s, i, k, k + |pat|);
        assert !OccursAt(s, pat, k);
      }
    }
  }

  /** Joining the pieces with the separator gives the string back. */
  lemma {:induction false} SplitOnRoundTrip(s: string, sep: string)
    requires |sep| > 0
    ensures JoinWith(SplitOn(s, sep), sep) == s
    decreases |s|
  {
    match IndexOf(s, sep)
    case None =>
    case Some(i) =>
      SplitOnRoundTrip(s[i + |sep|..], sep);
      JoinCons(s[..i], SplitOn(s[i + |sep|..], sep), sep);
      SplitAround(s, sep, i);
  }

  lemma SplitAround(s: string, sep: string, i: nat)
    requires OccursAt(s, sep, i)
    ensures s == s[..i] + sep + s[i + |sep|..]
  {
    assert s == s[..i] + s[i..i + |sep|] + s[i + |sep|..];
  }

  lemma JoinCons(head: string, rest: seq<string>, sep: string)
    requires |rest| >= 1
    ensures JoinWith([head] + rest, sep) == head + sep + JoinWith(rest, sep)
  {
    assert ([head] + rest)[1..] == rest;
  }

  /** No piece of a split contains the separator. */
  lemma {:induction false} SplitOnPiecesFree(s: string, sep: string)
    requires |sep| > 0
    ensures forall i :: 0 <= i < |SplitOn(s, sep)| ==> !Contains(SplitOn(s, sep)[i], sep)
    decreases |s|
  {
    match IndexOf(s, sep)
    case None =>
    case Some(i) =>
      SplitOnPiecesFree(s[i + |sep|..], sep);
      BeforeFirstOccurrence(s, sep, i);
  }

  /** Drop one trailing carriage return. */
  function DropCR(line: string): string {
    if |line| > 0 && line[|line| - 1] == '\r' then line[..|line| - 1] else line
  }

  /** JS `s.split(/\r?\n/)`: split at every line feed, removing a carriage return
      immediately before it. */
  function Lines(s: string): (r: seq<string>)
    ensures |r| >= 1
    decreases |s|
  {
    match IndexOf(s, "\n")
    case None => [s]
    case Some(i) => [DropCR(s[..i])] + Lines(s[i + 1..])
  }

  /** The lines are the pieces between line feeds, each but the last with one
      trailing carriage return removed. */
  lemma {:induction false} LinesAreSplitPieces(s: string)
    ensures var r, p := Lines(s), SplitOn(s, "\n");
      && |r| == |p|
      && (forall i :: 0 <= i < |r| - 1 ==> r[i] == DropCR(p[i]))
      && r[|r| - 1] == p[|p| - 1]
    decreases |s|
  {
    match IndexOf(s, "\n")
    case None =>
    case Some(i) =>
      var t := s[i + 1..];
      assert s[i + |"\n"|..] == t;
      LinesAreSplitPieces(t);
      var r, p := Lines(s), SplitOn(s, "\n");
      var r', p' := Lines(t), SplitOn(t, "\n");
      assert r == [DropCR(s[..i])] + r';
      assert p == [s[..i]] + p';
      forall k | 0 <= k < |r| - 1
        ensures r[k] == DropCR(p[k])
      {
        if k > 0 {
          assert r[k] == r'[k - 1] && p[k] == p'[k - 1];
        }
      }
      assert r[|r| - 1] == r'[|r'| - 1] && p[|p| - 1] == p'[|p'| - 1];
  }

  /** Index of the first line starting with `prefix`. */
  function FindPrefixed(lines: seq<string>, prefix: string): (r: Option<nat>)
    ensures r.Some? ==> r.value < |lines| && StartsWith(lines[r.value], prefix)
    ensures r.Some? ==> forall i :: 0 <= i < r.value ==> !StartsWith(lines[i], prefix)
    ensures r.None? ==> forall i :: 0 <= i < |lines| ==> !StartsWith(lines[i], prefix)
  {
    if |lines| == 0 then None
    else if StartsWith(lines[0], prefix) then Some(0)
    else match FindPrefixed(lines[1..], prefix)
      case None => None
      case Some(i) => Some(i + 1)
  }

  /** JS `lines.find(l => l.startsWith(prefix)) || ''`. */
  function FirstWithPrefix(lines: seq<string>, prefix: string): string {
    match FindPrefixed(lines, prefix)
    case None => ""
    case Some(i) => lines[i]
  }

  // ---------------------------------------------------------------- order

  /** Lexicographic order on strings by character code, as JS's default `sort`
      compares strings made of the ASCII characters this model produces. */
  predicate StrLess(a: string, b: string)
    decreases |a|
  {
    if |a| == 0 then |b| > 0
    else |b| > 0 && (a[0] < b[0] || (a[0] == b[0] && StrLess(a[1..], b[1..])))
  }

  lemma {:induction false} StrLessIrreflexive(a: string)
    ensures !StrLess(a, a)
    decreases |a|
  {
    if |a| > 0 {
      StrLessIrreflexive(a[1..]);
    }
  }

  lemma {:induction false} StrLessTransitive(a: string, b: string, c: string)
    requires StrLess(a, b) && StrLess(b, c)
    ensures StrLess(a, c)
    decreases |a|
  {
    if |a| > 0 && a[0] == b[0] && b[0] == c[0] {
      StrLessTransitive(a[1..], b[1..], c[1..]);
    }
  }

  lemma {:induction false} StrLessTotal(a: string, b: string)
    requires a != b
    ensures StrLess(a, b) || StrLess(b, a)
    decreases |a|
  {
    if |a| > 0 && |b| > 0 && a[0] == b[0] {
      assert a == [a[0]] + a[1..] && b == [b[0]] + b[1..];
      StrLessTotal(a[1..], b[1..]);
    }
  }

  /** Comparing two strings whose first parts have the same length compares the
      first parts, and the second parts on a tie. */
  lemma {:induction false} StrLessConcat(a1: string, a2: string, b1: string, b2: string)
    requires |a1| == |b1|
    ensures StrLess(a1 + a2, b1 + b2) <==> StrLess(a1, b1) || (a1 == b1 && StrLess(a2, b2))
    decreases |a1|
  {
    if |a1| == 0 {
      assert a1 + a2 == a2 && b1 + b2 == b2;
    } else {
      assert (a1 + a2)[0] == a1[0] && (b1 + b2)[0] == b1[0];
      assert (a1 + a2)[1..] == a1[1..] + a2 && (b1 + b2)[1..] == b1[1..] + b2;
      StrLessConcat(a1[1..], a2, b1[1..], b2);
      if a1[0] == b1[0] {
        assert a1 == b1 <==> a1[1..] == b1[1..] by {
          assert a1 == [a1[0]] + a1[1..] && b1 == [b1[0]] + b1[1..];
        }
      }
    }
  }

  /** On digit strings of one length, string order is numeric order. */
  lemma {:induction false} DigitsOrder(s: string, t: string)
    requires |s| == |t| && AllDigits(s) && AllDigits(t)
    ensures StrLess(s, t) <==> DigitsValue(s) < DigitsValue(t)
    ensures s == t <==> DigitsValue(s) == DigitsValue(t)
    decreases |s|
  {
    if |s| > 0 {
      var n := |s|;
      var s', t' := s[..n - 1], t[..n - 1];
      assert s == s' + [s[n - 1]] && t == t' + [t[n - 1]];
      DigitsOrder(s', t');
      StrLessConcat(s', [s[n - 1]], t', [t[n - 1]]);
      if s' != t' {
        StrLessTotal(s', t');
      }
    }
  }

  lemma StrLessAsymmetric(a: string, b: string)
    requires StrLess(a, b)
    ensures !StrLess(b, a)
  {
    if StrLess(b, a) {
      StrLessTransitive(a, b, a);
      StrLessIrreflexive(a);
    }
  }

  // ---------------------------------------------------------------- characters

  /** JS whitespace and line terminators (what `\s` matches and `trim` removes). */
  predicate IsJsSpace(c: char) {
    c == '\t' || c == '\n' || c == '\U{B}' || c == '\U{C}' || c == '\r' || c == ' '
    || c == '\U{A0}' || c == '\U{1680}' || ('\U{2000}' <= c <= '\U{200A}')
    || c == '\U{2028}' || c == '\U{2029}' || c == '\U{202F}' || c == '\U{205F}'
    || c == '\U{3000}' || c == '\U{FEFF}'
  }

  /** ASCII lower-casing; every other character is unchanged. */
  function LowerChar(c: char): char {
    if 'A' <= c <= 'Z' then (c as int + 32) as char else c
  }

  function LowerAscii(s: string): (r: string)
    ensures |r| == |s| && forall i :: 0 <= i < |s| ==> r[i] == LowerChar(s[i])
  {
    seq(|s|, i requires 0 <= i < |s| => LowerChar(s[i]))
  }

  /** `String.prototype.trimStart`: drops the leading white space. */
  function TrimStart(s: string): (r: string)
    ensures |r| <= |s| && r == s[|s| - |r|..]
    ensures |r| > 0 ==> !IsJsSpace(r[0])
    ensures forall i :: 0 <= i < |s| - |r| ==> IsJsSpace(s[i])
  {
    if |s| > 0 && IsJsSpace(s[0]) then TrimStart(s[1..]) else s
  }

  /** Every character is white space. */
  predicate AllSpace(s: string) {
    forall i :: 0 <= i < |s| ==> IsJsSpace(s[i])
  }

  /** No character is white space. */
  predicate NoSpace(s: string) {
    forall i :: 0 <= i < |s| ==> !IsJsSpace(s[i])
  }

  lemma AllSpaceTail(w: string)
    requires |w| > 0 && AllSpace(w)
    ensures IsJsSpace(w[0]) && AllSpace(w[1..])
  {
    forall i | 0 <= i < |w| - 1 ensures IsJsSpace(w[1..][i]) {
      assert w[1..][i] == w[i + 1];
    }
  }

  /** `String.prototype.trimEnd`: drops the trailing white space. */
  function TrimEnd(s: string): (r: string)
    ensures |r| <= |s| && r == s[..|r|]
    ensures |r| > 0 ==> !IsJsSpace(r[|r| - 1])
    ensures forall i :: |r| <= i < |s| ==> IsJsSpace(s[i])
  {
    if |s| > 0 && IsJsSpace(s[|s| - 1]) then TrimEnd(s[..|s| - 1]) else s
  }

  /** `String.prototype.trim`. */
  function Trim(s: string): (r: string)
    ensures |r| <= |s|
    ensures |r| > 0 ==> !IsJsSpace(r[0]) && !IsJsSpace(r[|r| - 1])
    ensures AllSpace(s) ==> r == []
  {
    TrimEnd(TrimStart(s))
  }

  /** A string with no white space at either end is its own trim. */
  lemma TrimmedFixpoint(s: string)
    requires |s| > 0 ==> !IsJsSpace(s[0]) && !IsJsSpace(s[|s| - 1])
    ensures Trim(s) == s
  {
  }
}

=== FILE: wrappers.dfy ===
/** The Option type used for the source's `null` / `undefined` results. */
module Wrappers {

  datatype Option<+T> = None | Some(value: T)
}

=== FILE: ymd.dfy ===
/** The `YYYY-MM-DD` text form of a civil date, as both halves of the pipeline
    write it (`fmtYmd` and its two inline copies in the feed synchroniser) and as
    the feed synchroniser reads it back through `new Date("YYYY-MM-DD")`. */
module Ymd {
  import opened Wrappers
  import opened Text
  import opened Civil

  /** Four digits, a hyphen, two digits, a hyphen, two digits. */
  predicate IsYmdShape(s: string) {
    |s| == 10 && s[4] == '-' && s[7] == '-'
    && AllDigits(s[..4]) && AllDigits(s[5..7]) && AllDigits(s[8..])
  }

  /** `${getFullYear()}-${pad2(getMonth() + 1)}-${pad2(getDate())}`: the year is
      written without padding, month and day are zero-padded to two digits. */
  function Format(d: Date): string
    requires Valid(d)
  {
    NatToString(d.year) + "-" + Pad2(d.month) + "-" + Pad2(d.day)
  }

  /** `new Date(s)` for a string of the shape above: the date it names, or `None`
      where JS yields an Invalid Date whose comparisons are all false. */
  function ParseYmd(s: string): (r: Option<Date>)
    ensures r.Some? ==> IsYmdShape(s) && Valid(r.value) && r.value.year <= 9999
  {
    if IsYmdShape(s) then
      var d := Date(DigitsValue(s[..4]), DigitsValue(s[5..7]), DigitsValue(s[8..]));
      assert d.year <= 9999 by { FourDigitsValue(s[..4]); }
      if Valid(d) then Some(d) else None
    else None
  }

  lemma FourDigitsValue(s: string)
    requires |s| == 4 && AllDigits(s)
    ensures DigitsValue(s) == 1000 * DigitValue(s[0]) + 100 * DigitValue(s[1]) + 10 * DigitValue(s[2]) + DigitValue(s[3])
  {
    var p1, p2, p3 := s[..1], s[..2], s[..3];
    assert p2[..1] == p1 && p3[..2] == p2 && s[..3] == p3;
    assert p1[..0] == [];
    assert DigitsValue(p1) == DigitValue(s[0]);
    assert DigitsValue(p2) == DigitsValue(p1) * 10 + DigitValue(s[1]);
    assert DigitsValue(p3) == DigitsValue(p2) * 10 + DigitValue(s[2]);
    assert DigitsValue(s) == DigitsValue(p3) * 10 + DigitValue(s[3]);
  }

  lemma FourDigitYear(n: nat)
    requires 1000 <= n <= 9999
    ensures |NatToString(n)| == 4
  {
    assert |NatToString(n / 10 / 10 / 10)| == 1;
    assert |NatToString(n / 10 / 10)| == 2;
    assert |NatToString(n / 10)| == 3;
  }

  /** A formatted date with a four-digit year has the shape the feed parser emits. */
  lemma FormatShape(d: Date)
    requires Valid(d) && 1000 <= d.year <= 9999
    ensures IsYmdShape(Format(d))
    ensures Format(d)[..4] == NatToString(d.year)
    ensures Format(d)[5..7] == Pad2(d.month) && Format(d)[8..] == Pad2(d.day)
  {
    FourDigitYear(d.year);
  }

  /** Reading back a formatted date gives the same date. */
  lemma ParseFormat(d: Date)
    requires Valid(d) && 1000 <= d.year <= 9999
    ensures ParseYmd(Format(d)) == Some(d)
  {
    FormatShape(d);
  }

  /** Formatting a parsed date string gives the string back, unless the year has a
      leading zero (JS then prints the year without it). */
  lemma FormatParse(s: string)
    requires ParseYmd(s).Some? && s[0] != '0'
    ensures Format(ParseYmd(s).value) == s
  {
    var d := ParseYmd(s).value;
    assert s[..4][0] == s[0];
    NatToStringOfDigits(s[..4]);
    Pad2OfDigits(s[5..7]);
    Pad2OfDigits(s[8..]);
    assert s == s[..4] + "-" + s[5..7] + "-" + s[8..];
  }

  lemma SplitEqual(a: string, b: string, c: string, d: string)
    requires a + b == c + d && |b| == |d|
    ensures a == c && b == d
  {
    assert a == (a + b)[..|a|];
    assert c == (c + d)[..|c|];
    assert b == (a + b)[|a|..];
    assert d == (c + d)[|c|..];
  }

  /** The `-MM-DD` part of the text form. */
  function MonthDayTail(d: Date): (t: string)
    requires Valid(d)
    ensures |t| == 6 && t[1..3] == Pad2(d.month) && t[4..] == Pad2(d.day)
    ensures Format(d) == NatToString(d.year) + t
  {
    "-" + (Pad2(d.month) + ("-" + Pad2(d.day)))
  }

  /** For four-digit years, the text forms sort as the dates do: string order on
      `YYYY-MM-DD` is calendar order. */
  lemma FormatOrder(a: Date, b: Date)
    requires Valid(a) && Valid(b) && 1000 <= a.year <= 9999 && 1000 <= b.year <= 9999
    ensures StrLess(Format(a), Format(b)) <==> LexLess(a, b)
  {
    var ya, yb := NatToString(a.year), NatToString(b.year);
    FourDigitYear(a.year);
    FourDigitYear(b.year);
    StrLessConcat(ya, MonthDayTail(a), yb, MonthDayTail(b));
    DigitsOrder(ya, yb);
    MonthDayTailOrder(a, b);
  }

  lemma MonthDayTailOrder(a: Date, b: Date)
    requires Valid(a) && Valid(b)
    ensures StrLess(MonthDayTail(a), MonthDayTail(b)) <==>
      a.month < b.month || (a.month == b.month && a.day < b.day)
  {
    var ma, mb := Pad2(a.month), Pad2(b.month);
    var da, db := Pad2(a.day), Pad2(b.day);
    DashOrder(ma + ("-" + da), mb + ("-" + db));
    StrLessConcat(ma, "-" + da, mb, "-" + db);
    DashOrder(da, db);
    DigitsOrder(ma, mb);
    DigitsOrder(da, db);
  }

  lemma DashOrder(x: string, y: string)
    ensures StrLess("-" + x, "-" + y) <==> StrLess(x, y)
  {
    assert ("-" + x)[1..] == x && ("-" + y)[1..] == y;
  }

  /** Distinct dates have distinct text forms, so string equality on the `YYYY-MM-DD`
      form is date equality. */
  lemma FormatInjective(a: Date, b: Date)
    requires Valid(a) && Valid(b) && Format(a) == Format(b)
    ensures a == b
  {
    var ya, yb := NatToString(a.year), NatToString(b.year);
    var ta, tb := MonthDayTail(a), MonthDayTail(b);
    SplitEqual(ya, ta, yb, tb);
    NatToStringInjective(a.year, b.year);
    Pad2Injective(a.month, b.month);
    Pad2Injective(a.day, b.day);
  }
}
